=== FILE: README.md ===
# Two assignment-problem solvers, modelled in Dafny

The repository compares solvers of the rectangular assignment problem: give
each row of an n-by-m cost matrix one cell, with no column used twice, at the
least total cost. Two of its solvers are written out in full, and this project
models both of them with imperative Dafny. The model uses the solvers' own
state: arrays updated in place, and classes whose methods change their fields.

**The Kuhn-Munkres engine** (`PaoloBonzini/hungarian.c`, with the same code
over unsigned `size_t` cells in `PaoloBonzini/test.c`, 22 lines earlier).
- It is modelled in `kuhn.dfy` (module `Kuhn`). `KuhnData` holds the cost
  table, the mark matrix (`Unmarked`, `Marked` = star, `Prime`), the cover
  vectors and the two snapshots used by the chain flip.
- The model covers each step of `kuhn_match`:
  - row reduction;
  - greedy starring;
  - the column recount;
  - the prime search over a zero set;
  - the alternating-chain flip;
  - the dual adjustment;
  - reading the assignment off the stars.
- The sparse bit set behind the zero search is in `bitset.dfy` (module
  `BitSets`). It models 64-bit limbs, a doubly linked list of the non-zero
  limbs, and the floor-log2 trick `lb`.
  - Its members are the ghost set `Elems`.
  - Its list order is the ghost sequence `List`.
- The three fixture tables of `specificTests`, with their optimal costs, are
  in `fixtures.dfy` (module `Fixtures`).

**Yay295's APSO solver** (`Yay295/APS.h`).
- It is modelled in `apso.dfy` (module `Apso`). Class `APSO` holds `results`
  and the dimensions, and works on a row-major `array<int>` of cells.
- A matrix taller than wide is transposed, and signed input is shifted to
  unsigned.
- Rows are reduced, and columns too when the matrix is square.
- `getResults` assigns zeros greedily. When a column clashes it moves earlier
  placements along zeros with the recursive `valueSwap`. After a pass that
  leaves rows unassigned, `drawLines` covers every zero with lines and
  `updateMatrix` shifts the matrix by the least uncovered cell, saturating at
  the cell maximum.

Both solvers use 64-bit unsigned cells: `CellMax` = 2^64 - 1 (`common.dfy`).
Line numbers below for `kuhn_*`, `BitSet_*` and `lb` are those of
`hungarian.c`. Rows about unsigned wrap-around cite `test.c`, whose `cell` is
`size_t`.

## Model

| member | source | states |
|---|---|---|
| Common.AddWrap | PaoloBonzini/test.c:367 | unsigned 64-bit addition: the exact sum when it fits, otherwise the sum minus 2^64 |
| Common.MinOf | PaoloBonzini/hungarian.c:182-185 | the row minimum is one of the row's cells and no cell is smaller |
| Common.MinOfStep | PaoloBonzini/hungarian.c:183-185 | one more cell of the scan keeps the old minimum unless the new cell is strictly smaller |
| Common.RowMajor | PaoloBonzini/hungarian.c:274-275 | the cell index `i * m + j` lies in the matrix, and dividing it by m gives back row i and column j |
| BitSets.Lb | PaoloBonzini/hungarian.c:522-535 | for a non-zero limb, shifting it right by the result leaves exactly 1 (floor of log2); a zero limb gives 0 |
| BitSets.LowestSetBit | PaoloBonzini/hungarian.c:512 | `x & -x` of a non-zero limb has one bit b set, and x has no set bit below b |
| BitSets.LimbCount | PaoloBonzini/hungarian.c:433-435 | the number of limbs is the bit count divided by 64, rounded up: enough limbs, and no spare one |
| BitSets.TracksAdd | PaoloBonzini/hungarian.c:461 | turning on a bit of one limb adds exactly that index to the members |
| BitSets.TracksRemove | PaoloBonzini/hungarian.c:486 | turning off a bit of one limb removes exactly that index from the members |
| BitSets.TracksLowest | PaoloBonzini/hungarian.c:512 | the lowest set bit of a non-zero limb j, plus 64 j, is a member and the least member in that limb |
| BitSets.ThreadsPush | PaoloBonzini/hungarian.c:463-469 | putting a limb that just became non-zero at the head keeps the list threading exactly the non-zero limbs |
| BitSets.ThreadsUnlink | PaoloBonzini/hungarian.c:488-497 | unlinking a limb that just became zero joins its neighbours, moves the head when needed, and keeps the threading |
| BitSets.ThreadsNeighbours | PaoloBonzini/hungarian.c:489-490 | `prev` and `next` of a listed limb are the adjacent list entries, or -1 at either end |
| BitSets.WithoutMembers | PaoloBonzini/hungarian.c:488-497 | the list without one entry has no repeats and holds exactly the other entries |
| BitSets.BitSet.constructor | PaoloBonzini/hungarian.c:431-441 | a fresh, well-formed set of the requested size with no members and an empty list |
| BitSets.BitSet.Set | PaoloBonzini/hungarian.c:456-470 | the members become the old members plus i, and the set stays well formed (bits, list and links) |
| BitSets.BitSet.Unset | PaoloBonzini/hungarian.c:478-498 | the members become the old members minus i, and the set stays well formed (bits, list and links) |
| BitSets.BitSet.Link | PaoloBonzini/hungarian.c:463-469 | the limb becomes the head of the list, ahead of the old list |
| BitSets.BitSet.Unlink | PaoloBonzini/hungarian.c:488-497 | the emptied limb leaves the list, and every other listed limb stays |
| BitSets.BitSet.Any | PaoloBonzini/hungarian.c:506-513 | -1 exactly when the set is empty; otherwise a member in the head limb, and the least member of that limb |
| Kuhn.KuhnData.constructor | PaoloBonzini/hungarian.c:127-140 | the run works on the caller's table; all marks are unmarked and no row or column is covered |
| Kuhn.KuhnData.Idx | PaoloBonzini/hungarian.c:264 | the zero-set index of cell (i, j) lies below n m and decodes back to i and j |
| Kuhn.KuhnData.RowMinimum | PaoloBonzini/hungarian.c:181-185 | the scan returns the minimum of row i |
| Kuhn.KuhnData.SubtractFromRow | PaoloBonzini/hungarian.c:187-188 | every cell of row i drops by min, and other rows are unchanged |
| Kuhn.KuhnData.ReduceRows | PaoloBonzini/hungarian.c:175-190 | each cell drops by its row's old minimum; every row then holds a zero and no cell goes below zero |
| Kuhn.KuhnData.StarFirstZero | PaoloBonzini/hungarian.c:207-213 | stars and covers the first zero of the row in an uncovered column; columns before it are covered or non-zero; nothing else changes |
| Kuhn.KuhnData.MarkRow | PaoloBonzini/hungarian.c:206-213 | one row of the greedy starring keeps the star records and the count in step |
| Kuhn.KuhnData.StarRecords | PaoloBonzini/hungarian.c:206-213 | consistent star records imply one star per row and per column, stars on zeros, and covered columns are exactly the starred ones |
| Kuhn.KuhnData.MarkZeroes | PaoloBonzini/hungarian.c:201-216 | stars only zeros, at most one per row and column; the count is the number of covered columns, which are the starred ones; it reaches n exactly when every row is starred; no zero is left in an unstarred row and an uncovered column |
| Kuhn.KuhnData.CoverFirstStar | PaoloBonzini/hungarian.c:234-239 | covers the column of the row's first star in an uncovered column; earlier columns are covered or unstarred |
| Kuhn.KuhnData.CountRow | PaoloBonzini/hungarian.c:233-239 | one row of the recount keeps the cover records and the count in step |
| Kuhn.KuhnData.CoverRecords | PaoloBonzini/hungarian.c:232-239 | covered columns are starred; with unique stars, exactly the starred columns are covered, and a full count means every row is starred |
| Kuhn.KuhnData.CountColumns | PaoloBonzini/hungarian.c:227-242 | the count is the number of covered columns, at most n; with unique stars, column j is covered exactly when it holds a star, and the count is n exactly when every row holds a star |
| Kuhn.KuhnData.UncoveredMinimum | PaoloBonzini/test.c:355-361 | the least cell in an uncovered row and column, or `CELL_MAX` when there is none: no such cell is smaller, and the value is attained |
| Kuhn.KuhnData.AdjustRow | PaoloBonzini/test.c:363-375 | one row of the adjustment: doubly covered cells gain min modulo 2^64, uncovered cells lose min, and other rows are unchanged |
| Kuhn.KuhnData.AddAndSubtract | PaoloBonzini/test.c:353-376 | uncovered cells drop by the least uncovered cell without going below zero, and one reaches zero; doubly covered cells rise by it modulo 2^64; the rest are unchanged; stars and primes stay on zeros after a failed prime search |
| Kuhn.KuhnData.Assign | PaoloBonzini/hungarian.c:407-422 | entry i is (i, the row's last starred column), or (-1, -1) exactly when the row has no star; with unique stars, starred entries use distinct columns |
| Kuhn.KuhnData.FindStar | PaoloBonzini/hungarian.c:279-283 | the first starred column of the row, or m exactly when the row has no star |
| Kuhn.KuhnData.ZeroSet | PaoloBonzini/hungarian.c:259-264 | the new set holds exactly the zeros in uncovered columns |
| Kuhn.KuhnData.UncoverColumn | PaoloBonzini/hungarian.c:293-300 | the zeros of the newly uncovered column join the set in uncovered rows and leave it in covered rows; other members are unchanged |
| Kuhn.KuhnData.CoverRowZeros | PaoloBonzini/hungarian.c:302-305 | the zeros of the newly covered row leave the set, except the one in the star's column |
| Kuhn.KuhnData.CoverStar | PaoloBonzini/hungarian.c:290-291 | covers the prime's row and uncovers its star's column, keeping the mark and cover invariants |
| Kuhn.KuhnData.Advance | PaoloBonzini/hungarian.c:289-305 | after moving the cover, the zero set again holds exactly the uncovered zeros, with the invariants kept |
| Kuhn.KuhnData.PrimeZero | PaoloBonzini/hungarian.c:277 | priming a zero from the set keeps the mark invariants and changes only that cell |
| Kuhn.KuhnData.Visit | PaoloBonzini/hungarian.c:274-305 | either stops on a prime in an uncovered column of a starless row, or covers a row that was uncovered and keeps the zero set exact; columns are only uncovered; marks only become primes |
| Kuhn.KuhnData.FindPrime | PaoloBonzini/hungarian.c:253-313 | TRUE gives a prime in an uncovered column of a row without a star; FALSE means no zero is left in an uncovered row and column; columns are only uncovered; marks only become primes |
| Kuhn.KuhnData.SnapshotRow | PaoloBonzini/hungarian.c:341-345 | each star of the row records the row for its column; the row records its last prime in column order, or keeps -1 when it has none |
| Kuhn.KuhnData.Snapshot | PaoloBonzini/hungarian.c:335-345 | `colMarks` and `rowPrimes` record the star row of each column and the last prime column of each row, or -1 |
| Kuhn.KuhnData.AltMark | PaoloBonzini/hungarian.c:316-322 | a star becomes unmarked and anything else becomes a star; no other cell changes |
| Kuhn.KuhnData.ClearPrimes | PaoloBonzini/hungarian.c:359-364 | every prime becomes unmarked; stars and unmarked cells stay |
| Kuhn.KuhnData.NextInChain | PaoloBonzini/hungarian.c:349-356 | the star of the walk's current column lies in a row new to the walk, whose recorded prime is in an uncovered column, so the walk extends |
| Kuhn.KuhnData.ChainExtend | PaoloBonzini/hungarian.c:349-356 | a walk extends by the star row of its last column and that row's recorded prime |
| Kuhn.KuhnData.StarOrigin | PaoloBonzini/hungarian.c:347-357 | every star after the walk is an old star off the walk, the starting prime, or a prime of a walked row |
| Kuhn.KuhnData.WalkStarsUnique | PaoloBonzini/hungarian.c:347-357 | a walk that ended on a column without a star leaves one star per row and per column |
| Kuhn.KuhnData.WalkDone | PaoloBonzini/hungarian.c:347-357 | after a finished walk, stars are unique, exactly the starting row gains a star, and every star was a star or a prime |
| Kuhn.KuhnData.Link | PaoloBonzini/hungarian.c:352-356 | one link of the walk unstars the column's star and stars its row's recorded prime |
| Kuhn.KuhnData.Follow | PaoloBonzini/hungarian.c:348-357 | a completed walk is a chain that ends on a column with no star in the snapshot, and flips exactly its links |
| Kuhn.KuhnData.Walk | PaoloBonzini/hungarian.c:347-357 | a completed walk keeps stars unique, gives exactly the starting row a new star, and stars only old stars or old primes |
| Kuhn.KuhnData.AltMarks | PaoloBonzini/hungarian.c:331-365 | when the walk completes: no prime is left, stars are unique, the starred rows are the old ones plus the starting row, so the star count grows by one |
| Kuhn.KuhnData.NextPrime | PaoloBonzini/hungarian.c:146-147 | a successful search returns a prime in an uncovered column of a starless row, with the invariants kept |
| Kuhn.KuhnData.Run | PaoloBonzini/hungarian.c:142-150 | on success stars are unique, lie on zeros, and every row holds one; cells stay in range |
| Kuhn.KuhnMatch | PaoloBonzini/hungarian.c:122-165 | a result pairs every row i with a distinct column that is a zero of the reduced table |
| Fixtures.Cost | PaoloBonzini/test.c:549-565 | the cost of an assignment is non-negative on a non-negative table, and zero when every chosen cell is zero |
| Fixtures.CostAtLeastCell | PaoloBonzini/test.c:549-565 | on a non-negative table, an assignment costs at least any one of its chosen cells |
| Fixtures.Table2Optimum | PaoloBonzini/test.c:550-553 | the 2-by-2 fixture has an assignment of cost 0, its optimum |
| Fixtures.Table4Optimum | PaoloBonzini/test.c:553-558 | the 4-by-4 fixture has an assignment of cost 0 that avoids its single 1 |
| Fixtures.PigeonRows | PaoloBonzini/test.c:558-564 | some row among rows 2-4 of the 5-by-5 fixture gets a column of index 2 or more |
| Fixtures.Table5Witness | PaoloBonzini/test.c:558-564 | the 5-by-5 fixture has an assignment of cost 1 |
| Fixtures.Table5LowerBound | PaoloBonzini/test.c:558-564 | every assignment of the 5-by-5 fixture costs at least 1, so its optimum is 1 |
| Apso.ShiftAsWritten | Yay295/APS.h:79-82 | adding the signed maximum and reading the sum as unsigned maps every cell above the minimum to itself plus 2^63 - 1, and the minimum to 2^64 - 1 |
| Apso.ShiftAsWrittenReorders | Yay295/APS.h:79-82 | the shift as written puts the least signed cell above 0: it does not keep the order of costs |
| Apso.Shift | Yay295/APS.h:142-146 | the intended shift: every signed cell maps into the unsigned range, at distance 2^63 |
| Apso.ShiftPreservesOrder | Yay295/APS.h:142-146 | the intended shift keeps both the order and the differences of any two cells |
| Apso.Lift | Yay295/APS.h:146 | a stored cell is in range; an unsigned input cell is stored unchanged; a signed cell is stored with the order-preserving shift, 2^63 above its value |
| Apso.LiftAgainstAsWritten | Yay295/APS.h:80-82 | the as-written shift stores every signed cell one below the stored cell of the model, modulo 2^64; the signed minimum becomes 2^64 - 1 there and 0 here |
| Apso.ShiftedCopy | Yay295/APS.h:79-84 | the stored matrix has one cell per input cell: the input cell, shifted when signed |
| Apso.TransposeToUnsigned | Yay295/APS.h:141-156 | w h cells; cell (row, column) of the input is stored at position column h + row, shifted when signed |
| Apso.PushColumn | Yay295/APS.h:150-151 | the inner loop appends one input column, top to bottom, after the cells already stored, which stay unchanged |
| Apso.ColumnAppended | Yay295/APS.h:150-152 | appending column `column` after the first `column` columns of the transpose gives the first `column + 1` columns, cell for cell |
| Apso.SatAdd | Yay295/APS.h:450-455 | the exact sum when it fits in a cell, otherwise the cell maximum |
| Apso.PlaceFree | Yay295/APS.h:265-269 | a placement in a free row and a free column keeps rows and columns used once, and the used flags exact |
| Apso.PlaceMoving | Yay295/APS.h:279-281 | a placement appended in a free row keeps rows distinct, and columns distinct apart from the new placement, which becomes the one to move |
| Apso.RowNowUsed | Yay295/APS.h:283-284 | after a successful reassignment the new row counts as used |
| Apso.MoveToFree | Yay295/APS.h:340-345 | moving the clashing placement to a free column leaves every column used at most once, with exact used flags |
| Apso.HandOver | Yay295/APS.h:350-354 | moving the clashing placement into an occupied column makes it the one to move next, and the other placements stay distinct |
| Apso.APSO.RowMin | Yay295/APS.h:192-200 | the scan, including its early stop at a zero, returns the row minimum |
| Apso.APSO.SubtractRow | Yay295/APS.h:202-205 | every cell of the row drops by min; other rows are unchanged |
| Apso.APSO.RowReduce | Yay295/APS.h:185-209 | each cell drops by its row's old minimum, so rows whose minimum is 0 are untouched; every row then holds a zero; cells stay in range |
| Apso.APSO.ColumnMin | Yay295/APS.h:218-226 | the scan, including its early stop at a zero, returns the column minimum |
| Apso.APSO.SubtractColumn | Yay295/APS.h:228-231 | every cell of the column drops by min; other columns are unchanged |
| Apso.APSO.ColumnReduce | Yay295/APS.h:213-235 | each cell drops by its column's old minimum; every column then holds a zero; cells stay in range |
| Apso.APSO.FindConflict | Yay295/APS.h:322-331 | the first placement in column x whose row is not visited, or none, and then no placement qualifies |
| Apso.APSO.TakeFreeColumn | Yay295/APS.h:340-346 | on success only placement `cf` moves, to the first free column holding a zero in its row, and exactly that column becomes used; on failure nothing changed and the row has no zero in a free column |
| Apso.APSO.SwapUsedColumns | Yay295/APS.h:350-361 | on success every column is used once, on zeros; on failure the placements and used columns are as on entry |
| Apso.APSO.ValueSwap | Yay295/APS.h:304-362 | on success every column is used once and every placement is on a zero; on failure the placements and `usedColumns` are as on entry; rows of placements never change; visited rows stay visited |
| Apso.APSO.FreeZero | Yay295/APS.h:265-266 | the first free column holding a zero in the row, or the width; every earlier column is used or non-zero |
| Apso.APSO.AssignRow | Yay295/APS.h:262-293 | placements, used rows and used columns stay consistent; a placed row adds one placement in that row, only that row becomes used, and earlier placements keep their rows; an unplaced row changes nothing and had no zero in a free column; a row with a zero in a free column is placed in the first such column, which alone becomes used |
| Apso.APSO.SwapIntoRow | Yay295/APS.h:276-290 | placements, used rows and used columns stay consistent; a placed row adds one placement in that row, only that row becomes used, and earlier placements keep their rows; an unplaced row changes nothing |
| Apso.APSO.GetResults | Yay295/APS.h:239-300 | placements are on zeros, in distinct rows and distinct columns; a finished run has one placement per row; with no rows it never finishes |
| Apso.APSO.FirstOpenZero | Yay295/APS.h:265-266 | the first column whose flag is clear and whose cell in the row is zero, or the width when no such column exists |
| Apso.FirstIn | Yay295/APS.h:411-416 | the first placement in the column, or none when no placement lies in it |
| Apso.APSO.CoverStep | Yay295/APS.h:403-420 | modified step 2 for one row: only columns are added, and a step that adds no column changes nothing |
| Apso.APSO.PassUpTo | Yay295/APS.h:399-423 | the steps over rows 0 to n - 1 in turn only add columns, and a pass that adds none changes nothing |
| Apso.APSO.Lines | Yay295/APS.h:396-423 | the covers `drawLines` ends with, from repeating passes until one draws nothing: a fixpoint of a whole pass |
| Apso.APSO.PassClosed | Yay295/APS.h:399-423 | a pass that draws no line leaves no uncovered row with a zero in an uncovered column |
| Apso.APSO.PassOutcome | Yay295/APS.h:399-423 | a pass either changes nothing and leaves no uncovered zero, or covers a new column |
| Apso.APSO.PassRow | Yay295/APS.h:402-421 | one more row of a pass gives the covers `PassUpTo` predicts, and records whether a line has been drawn |
| Apso.APSO.CoverZero | Yay295/APS.h:403-420 | the new covers are exactly `CoverStep` of the old ones; when the row is uncovered and has a zero in an uncovered column, the first such column is covered, and only the row of that column's placement, if any, loses its cover; otherwise nothing changes and the row, if uncovered, has no zero in an uncovered column; a covered column's placement stays in an uncovered row |
| Apso.APSO.DrawPass | Yay295/APS.h:399-423 | the new covers are exactly `PassUpTo` over all rows, and a line is reported exactly when the column covers changed; a pass that draws no line changes nothing and leaves no uncovered zero; a pass that draws one covers a new column |
| Apso.APSO.FindLines | Yay295/APS.h:393-423 | the covers are exactly `Lines` from every assigned row and no column; only assigned rows are covered; a covered column's placement has its row uncovered; no zero is left uncovered; each placement is covered exactly once |
| Apso.APSO.OpenMin | Yay295/APS.h:432-442 | the least cell in an uncovered row and column, or the cell maximum when there is none: no such cell is smaller, and the value is attained |
| Apso.APSO.AdjustRow | Yay295/APS.h:445-461 | one row of the update: doubly covered cells gain min, capped at the maximum; uncovered cells lose min; cells covered once are unchanged |
| Apso.APSO.UpdateMatrix | Yay295/APS.h:430-462 | `min` is the least cell in an uncovered row and column (attained), or the cell maximum when there is none; uncovered cells lose it, doubly covered cells gain it capped at the maximum, cells covered once are unchanged; when an uncovered cell exists, one of them becomes 0 |
| Apso.APSO.DrawLines | Yay295/APS.h:366-426 | the lines are exactly `Lines` from every assigned row and no column; they cover only assigned rows and leave no zero uncovered; the matrix is then shifted by the least uncovered cell; when an uncovered cell remains, that cell minimum is positive and a new zero appears in an uncovered cell; every placement keeps its zero |
| Apso.APSO.FlipResults | Yay295/APS.h:179-180 | every placement has its coordinates swapped, and there are as many as before |
| Apso.APSO.Math | Yay295/APS.h:165-181 | placements lie in the matrix as given, in distinct rows and columns; one per row of the matrix as solved once the loop finishes; a matrix with no rows never finishes |
| Apso.TotalCost | Yay295/APS.h:127-132 | the sum of the placed cells is non-negative |
| Apso.APSO.ResultCost | Yay295/APS.h:127-132 | the cost is the sum of the placed cells of the matrix as given, modulo 2^64 |
| Apso.ResultIndexAsWritten | Yay295/APS.h:130 | the index `resultCost` reads for a placement, with the solved width as the stride, is at least that width times the placement's row |
| Apso.ResultCostStrideAsWritten | Yay295/APS.h:130 | for w < h, a placement in the last row is read at or beyond w h with the stride as written, while its cell lies below w h |
| Apso.APSO.constructor | Yay295/APS.h:75-86 | the given dimensions are kept, and the matrix is transposed when taller than wide; placements lie in the matrix, in distinct rows and columns, min(w, h) of them when finished; an empty matrix never finishes |
| Apso.APSO.InPlace | Yay295/APS.h:95-104 | as the constructor, for the caller's own unsigned vector, which the solver works on in place |

## Left out

- `main`, `print`, `speedTest`, `printResults` and the printing in `specificTests` are console I/O, random matrices and timing. They are not modelled.
- `malloc`, `calloc` and `free` become Dafny allocation. The uninitialised `ssize_t` rows that `kuhn_assign` leaves for starless rows are modelled as (-1, -1).
- The cell type is fixed to unsigned 64-bit for both solvers.
  - The C++ templates over other integer widths are not modelled.
  - `hungarian.c`'s signed `long` cell, with `CELL_MAX` = 2^63 - 1 and overflow left undefined, is modelled by the unsigned engine of `test.c`.
- Apso.APSO.ResultCost: every cell must lie in [0, 2^64). The cost of a signed matrix, which `resultCost<T>` sums in the signed input type, is not modelled.
- Optimality of the returned assignment and the O(n^3) bound are not proved. The fixture lemmas prove the optimal costs of the three tables (0, 0 and 1), not that `kuhn_match` returns them. The 5-by-5 table's optimum is 1: rows 2-4 have zeros only in columns 0 and 1 (`Fixtures.Table5LowerBound`).
- Kuhn.KuhnMatch: a `fuel` bound limits the dual adjustments and the rounds of `kuhn_match`, and `None` stands for running out of it. For a table with more rows than columns the C never returns: at most m columns can be covered, so `kuhn_countColumns(&k) < n` stays true. For n <= m, termination of the outer loops is not proved.
- Kuhn.KuhnMatch: a table with rows but no columns is excluded by its precondition; `kuhn_reduceRows` would read past the end of each empty row there.
- Kuhn.KuhnData.Follow: the walk reads only the snapshot. Returning to a visited column would make the C loop run forever, and the model reports this as an incomplete walk. Whether it can happen is not established.
- Kuhn.KuhnData.FindPrime: the zero-set invariant is weaker than "every member is in an uncovered row". `kuhn_findPrime` resets the row covers but keeps the column covers. A star left by an earlier search in an uncovered column can therefore be a member in a covered row. The model states the invariant that does hold: a member in a covered row is that row's star.
- Apso.APSO.GetResults: `getResults` loops with no known bound. A `fuel` bound limits its passes, and the result `false` stands for running out of it. With zero rows the C loop never returns; the model proves that `GetResults` then reports `false`.
- Apso.APSO.Math: the `finished` field records whether the assignment loop ended within its fuel. It does not exist in the source.
- Apso.Lift: a signed cell is stored as its value plus 2^63, the corrected shift of the first finding below. `APS.h` stores its value plus 2^63 - 1, modulo 2^64. Every stored signed cell is therefore one higher than in the source, and the signed minimum is stored as 0 instead of 2^64 - 1. `Apso.LiftAgainstAsWritten` states the difference.
- Apso.ShiftedCopy: for signed input it stores the corrected shift of each cell, not the as-written one (see `Apso.Lift`).
- Apso.TransposeToUnsigned: for signed input it stores the corrected shift of each cell, not the as-written one (see `Apso.Lift`).
- Apso.PushColumn: for signed input it stores the corrected shift of each cell, not the as-written one (see `Apso.Lift`).
- Apso.APSO.constructor: signed input is solved after the corrected shift. A signed matrix holding -2^63 is solved with that cell as the cheapest, where the source makes it the most expensive, so the placements can differ from the source's.
- Apso.APSO.constructor: the `flipped` field records the transposition so that `ResultCost` can use the dimensions as given. The source stores only the solved dimensions.
- `APSO()`, the empty default constructor, is not modelled.

## Findings

| source | as written | input that shows it | evidently intended | confidence | as-written member | corrected member |
|---|---|---|---|---|---|---|
| Yay295/APS.h:79-82 | signed cells are shifted by adding the signed maximum, read as unsigned | the signed minimum -2^63 becomes 2^64 - 1, the largest stored cost, while 0 becomes 2^63 - 1 | shift by 2^63, so that cost order is preserved | not executed | Apso.ShiftAsWritten, Apso.ShiftAsWrittenReorders | Apso.Shift, Apso.ShiftPreservesOrder |
| Yay295/APS.h:130 | `resultCost` indexes with the stored `width`, the width of the transposed matrix | a 2-row, 1-column matrix is solved with stored width 2; the placement in row 1 is read at index 2, past the end of the 2-cell input | index with the width of the matrix as given (`y * w + x`) | not executed | Apso.ResultIndexAsWritten, Apso.ResultCostStrideAsWritten | Apso.APSO.ResultCost |

=== FILE: apso.dfy ===
/**
 * Yay295's Assignment Problem Solver Object (APSO).
 *
 * The cost matrix is a vector of unsigned cells stored row by row.  A matrix
 * taller than wide is solved transposed.  The solver reduces rows (and
 * columns when square), then assigns zeros greedily, moving earlier
 * assignments along zeros when a column clashes (`valueSwap`), and when a
 * pass leaves rows unassigned covers the zeros with lines and shifts the
 * matrix by the least uncovered value (`drawLines`, `updateMatrix`).
 */
module Apso {
  import opened Common

  /** One assigned cell: column `x`, row `y` (`APSOResult`). */
  datatype Placement = Placement(x: int, y: int)

  /** Signed input cells are 64-bit two's complement integers. */
  const SignedMin: int := -0x8000_0000_0000_0000
  const SignedMax: int := 0x7FFF_FFFF_FFFF_FFFF

  predicate IsSigned(x: int) { SignedMin <= x <= SignedMax }

  /** The input cells: signed 64-bit when `signed`, unsigned 64-bit otherwise. */
  ghost predicate Inputs(input: seq<int>, signed: bool)
  {
    forall k :: 0 <= k < |input| ==> if signed then IsSigned(input[k]) else IsCell(input[k])
  }

  /**
   * The shift applied to a signed cell as the constructor and
   * `transposeToUnsigned` write it: add the signed maximum, and read the sum
   * back as an unsigned 64-bit value.
   */
  function ShiftAsWritten(x: int): (r: int)
    requires IsSigned(x)
    ensures IsCell(r)
    ensures x > SignedMin ==> r == x + SignedMax
    ensures x == SignedMin ==> r == CellMax
  {
    (x + SignedMax) % Modulus
  }

  /** The least signed cell becomes the greatest unsigned one: the shift does not keep the order of costs. */
  lemma ShiftAsWrittenReorders()
    ensures SignedMin < 0 && ShiftAsWritten(SignedMin) > ShiftAsWritten(0)
  {
  }

  /** The order-preserving shift: add the magnitude of the signed minimum. */
  function Shift(x: int): (r: int)
    requires IsSigned(x)
    ensures IsCell(r) && r == x - SignedMin
  {
    x + 0x8000_0000_0000_0000
  }

  /** Shifting every cell by the same amount keeps the order and the differences of costs. */
  lemma ShiftPreservesOrder(a: int, b: int)
    requires IsSigned(a) && IsSigned(b)
    ensures a < b <==> Shift(a) < Shift(b)
    ensures Shift(a) - Shift(b) == a - b
  {
  }

  /** An input cell as the solver stores it. */
  function Lift(x: int, signed: bool): (r: int)
    requires if signed then IsSigned(x) else IsCell(x)
    ensures IsCell(r)
    ensures !signed ==> r == x
    ensures signed ==> r == x - SignedMin
  {
    if signed then Shift(x) else x
  }

  /** A signed cell is stored one above what the as-written shift gives, modulo 2^64. */
  lemma LiftAgainstAsWritten(x: int)
    requires IsSigned(x)
    ensures ShiftAsWritten(x) == (Lift(x, true) + CellMax) % Modulus
    ensures x == SignedMin ==> Lift(x, true) == 0 && ShiftAsWritten(x) == CellMax
  {
  }

  /**
   * `values[..]` as the constructor fills it when no transposition is needed: a copy, shifted for signed input.
   */
  method ShiftedCopy(input: seq<int>, signed: bool) returns (values: seq<int>)
    requires Inputs(input, signed)
    ensures |values| == |input|
    ensures forall k :: 0 <= k < |input| ==> values[k] == Lift(input[k], signed)
  {
    values := [];
    var k := 0;
    while k < |input|
      invariant 0 <= k <= |input| && |values| == k
      invariant forall k' :: 0 <= k' < k ==> values[k'] == Lift(input[k'], signed)
    {
      values := values + [Lift(input[k], signed)];
      k := k + 1;
    }
  }

  /**
   * `transposeToUnsigned`: the w-by-h input, row by row, becomes the h-by-w
   * transposed matrix, row by row, shifted for signed input.
   */
  method TransposeToUnsigned(input: seq<int>, w: nat, h: nat, signed: bool) returns (values: seq<int>)
    requires |input| == w * h && Inputs(input, signed)
    ensures |values| == w * h
    ensures forall k :: 0 <= k < |values| ==> IsCell(values[k])
    ensures forall row, column :: 0 <= row < h && 0 <= column < w ==>
      values[RowMajor(column, row, w, h)] == Lift(input[RowMajor(row, column, h, w)], signed)
  {
    values := [];
    var column := 0;
    while column < w
      invariant 0 <= column <= w && |values| == column * h
      invariant forall k :: 0 <= k < |values| ==> IsCell(values[k])
      invariant forall row, c :: 0 <= row < h && 0 <= c < column ==>
        RowMajor(c, row, w, h) < |values| && values[RowMajor(c, row, w, h)] == Lift(input[RowMajor(row, c, h, w)], signed)
    {
      ghost var done := values;
      values := PushColumn(input, w, h, column, signed, values);
      assert |input| == h * w;
      ColumnAppended(input, w, h, column, signed, done, values);
      column := column + 1;
    }
  }

  /** Appending column `column` to the first `column` columns of the transpose gives the first `column + 1`. */
  lemma ColumnAppended(input: seq<int>, w: nat, h: nat, column: nat, signed: bool, done: seq<int>, values: seq<int>)
    requires |input| == h * w && Inputs(input, signed) && column < w && |done| == column * h
    requires forall row, c :: 0 <= row < h && 0 <= c < column ==>
      RowMajor(c, row, w, h) < |done| && done[RowMajor(c, row, w, h)] == Lift(input[RowMajor(row, c, h, w)], signed)
    requires |values| == |done| + h && values[..|done|] == done
    requires forall row :: 0 <= row < h ==> values[|done| + row] == Lift(input[RowMajor(row, column, h, w)], signed)
    ensures |values| == (column + 1) * h
    ensures forall row, c :: 0 <= row < h && 0 <= c < column + 1 ==>
      RowMajor(c, row, w, h) < |values| && values[RowMajor(c, row, w, h)] == Lift(input[RowMajor(row, c, h, w)], signed)
  {
    forall row', c | 0 <= row' < h && 0 <= c < column + 1
      ensures RowMajor(c, row', w, h) < |values|
      ensures values[RowMajor(c, row', w, h)] == Lift(input[RowMajor(row', c, h, w)], signed)
    {
      if c < column {
        RowMajorBelow(c, row', column, h);
        assert values[RowMajor(c, row', w, h)] == done[RowMajor(c, row', w, h)];
      }
    }
    assert (column + 1) * h == column * h + h;
  }

  /** The inner loop of `transposeToUnsigned`: append column `column` of the input, top to bottom. */
  method PushColumn(input: seq<int>, w: nat, h: nat, column: nat, signed: bool, values: seq<int>) returns (values': seq<int>)
    requires |input| == w * h && Inputs(input, signed) && column < w
    requires forall k :: 0 <= k < |values| ==> IsCell(values[k])
    ensures |values'| == |values| + h && values'[..|values|] == values
    ensures forall k :: 0 <= k < |values'| ==> IsCell(values'[k])
    ensures forall row :: 0 <= row < h ==> values'[|values| + row] == Lift(input[RowMajor(row, column, h, w)], signed)
  {
    values' := values;
    var row := 0;
    while row < h
      invariant 0 <= row <= h && |values'| == |values| + row && values'[..|values|] == values
      invariant forall k :: 0 <= k < |values'| ==> IsCell(values'[k])
      invariant forall row' :: 0 <= row' < row ==> values'[|values| + row'] == Lift(input[RowMajor(row', column, h, w)], signed)
    {
      values' := values' + [Lift(input[RowMajor(row, column, h, w)], signed)];
      row := row + 1;
    }
  }

  /** Cells of the columns before `column` come before the cells of `column` in column-major order. */
  lemma RowMajorBelow(c: int, row: int, column: int, h: int)
    requires 0 <= c < column && 0 <= row < h
    ensures c * h + row < column * h
  {
    MulAtLeast(column - c, h);
  }

  /** Unsigned addition capped at the largest cell: what `updateMatrix` does to a doubly covered cell. */
  function SatAdd(v: int, d: int): (r: int)
    requires IsCell(v) && IsCell(d)
    ensures IsCell(r)
    ensures v + d <= CellMax ==> r == v + d
    ensures v + d > CellMax ==> r == CellMax
  {
    var sum := AddWrap(v, d);
    if sum < d then CellMax else sum
  }

  /** The indices whose flag is still false: rows not yet visited, columns not yet covered. */
  ghost function Unflagged(flags: seq<bool>): set<int>
  {
    set i | 0 <= i < |flags| && !flags[i]
  }

  lemma UnflaggedGrow(before: seq<bool>, after: seq<bool>)
    requires |before| == |after|
    requires forall i :: 0 <= i < |before| && before[i] ==> after[i]
    ensures Unflagged(after) <= Unflagged(before)
  {
  }

  lemma UnflaggedShrinks(before: seq<bool>, after: seq<bool>, r: int)
    requires |before| == |after| && 0 <= r < |before| && !before[r] && after[r]
    requires forall i :: 0 <= i < |before| && before[i] ==> after[i]
    ensures Unflagged(after) < Unflagged(before)
  {
    assert r in Unflagged(before) - Unflagged(after);
  }

  /** No two placements share a row. */
  ghost predicate DistinctRows(R: seq<Placement>)
  {
    forall a, b :: 0 <= a < b < |R| ==> R[a].y != R[b].y
  }

  /** No two placements share a column, except possibly with the placement `mv` being moved. */
  ghost predicate DistinctColumnsExcept(R: seq<Placement>, mv: int)
  {
    forall a, b :: 0 <= a < b < |R| && a != mv && b != mv ==> R[a].x != R[b].x
  }

  ghost predicate DistinctColumns(R: seq<Placement>)
  {
    DistinctColumnsExcept(R, -1)
  }

  /** `used[c]` holds exactly when a placement other than `mv` is in column c. */
  ghost predicate UsedColumnsExcept(R: seq<Placement>, used: seq<bool>, mv: int)
  {
    forall c :: 0 <= c < |used| ==> (used[c] <==> exists a :: 0 <= a < |R| && a != mv && R[a].x == c)
  }

  /** `used[r]` holds exactly when some placement is in row r. */
  ghost predicate UsedRows(R: seq<Placement>, used: seq<bool>)
  {
    forall r :: 0 <= r < |used| ==> (used[r] <==> exists a :: 0 <= a < |R| && R[a].y == r)
  }

  /** Moving placement `cf`, which shares its column with `mv`, to a free column leaves every column used once. */
  lemma MoveToFree(R: seq<Placement>, used: seq<bool>, mv: int, cf: int, column: int)
    requires 0 <= mv < |R| && 0 <= cf < |R| && mv != cf && R[mv].x == R[cf].x
    requires DistinctColumnsExcept(R, mv) && UsedColumnsExcept(R, used, mv)
    requires 0 <= column < |used| && !used[column]
    ensures DistinctColumns(R[cf := Placement(column, R[cf].y)])
    ensures UsedColumnsExcept(R[cf := Placement(column, R[cf].y)], used[column := true], -1)
  {
    var R' := R[cf := Placement(column, R[cf].y)];
    var x := R[mv].x;
    forall a, b | 0 <= a < b < |R'|
      ensures R'[a].x != R'[b].x
    {
      if a != cf && b != cf && (a == mv || b == mv) {
        var o := if a == mv then b else a;
        assert R[o].x != R[cf].x;
      }
    }
    var used' := used[column := true];
    forall c | 0 <= c < |used'|
      ensures used'[c] <==> exists a :: 0 <= a < |R'| && R'[a].x == c
    {
      if c == column {
        assert R'[cf].x == c;
      } else if c == x {
        assert used[c] by { assert R[cf].x == c; }
        assert R'[mv].x == c;
      } else if used[c] {
        var a :| 0 <= a < |R| && a != mv && R[a].x == c;
        assert R'[a].x == c;
      } else {
        forall a | 0 <= a < |R'|
          ensures R'[a].x != c
        {
          if a != cf && a != mv {
            assert R[a].x != c;
          }
        }
      }
    }
  }

  /** Moving `cf` into an occupied column makes it the placement being moved. */
  lemma HandOver(R: seq<Placement>, used: seq<bool>, mv: int, cf: int, column: int)
    requires 0 <= mv < |R| && 0 <= cf < |R| && mv != cf && R[mv].x == R[cf].x
    requires DistinctColumnsExcept(R, mv) && UsedColumnsExcept(R, used, mv)
    ensures DistinctColumnsExcept(R[cf := Placement(column, R[cf].y)], cf)
    ensures UsedColumnsExcept(R[cf := Placement(column, R[cf].y)], used, cf)
  {
    var R' := R[cf := Placement(column, R[cf].y)];
    forall a, b | 0 <= a < b < |R'| && a != cf && b != cf
      ensures R'[a].x != R'[b].x
    {
      if a == mv || b == mv {
        var o := if a == mv then b else a;
        assert R[o].x != R[cf].x;
      }
    }
    forall c | 0 <= c < |used|
      ensures used[c] <==> exists a :: 0 <= a < |R'| && a != cf && R'[a].x == c
    {
      if used[c] {
        var a :| 0 <= a < |R| && a != mv && R[a].x == c;
        if a == cf {
          assert R'[mv].x == c;
        } else {
          assert R'[a].x == c;
        }
      } else {
        forall a | 0 <= a < |R'| && a != cf
          ensures R'[a].x != c
        {
          if a == mv {
            assert R[cf].x != c;
          } else {
            assert R[a].x != c;
          }
        }
      }
    }
  }

  /** Adding a placement in a free row and a free column keeps rows and columns used once. */
  lemma PlaceFree(R: seq<Placement>, rows: seq<bool>, cols: seq<bool>, row: int, column: int)
    requires DistinctRows(R) && DistinctColumns(R) && UsedRows(R, rows) && UsedColumnsExcept(R, cols, -1)
    requires 0 <= row < |rows| && !rows[row] && 0 <= column < |cols| && !cols[column]
    ensures DistinctRows(R + [Placement(column, row)]) && DistinctColumns(R + [Placement(column, row)])
    ensures UsedRows(R + [Placement(column, row)], rows[row := true])
    ensures UsedColumnsExcept(R + [Placement(column, row)], cols[column := true], -1)
  {
    var R' := R + [Placement(column, row)];
    var rows' := rows[row := true];
    forall r | 0 <= r < |rows'|
      ensures rows'[r] <==> exists a :: 0 <= a < |R'| && R'[a].y == r
    {
      if r == row {
        assert R'[|R|].y == r;
      } else if rows[r] {
        var a :| 0 <= a < |R| && R[a].y == r;
        assert R'[a].y == r;
      }
    }
    var cols' := cols[column := true];
    forall c | 0 <= c < |cols'|
      ensures cols'[c] <==> exists a :: 0 <= a < |R'| && a != -1 && R'[a].x == c
    {
      if c == column {
        assert R'[|R|].x == c;
      } else if cols[c] {
        var a :| 0 <= a < |R| && a != -1 && R[a].x == c;
        assert R'[a].x == c;
      }
    }
  }

  /** Appending a placement in a free row, to be moved into place: the earlier placements keep their columns. */
  lemma PlaceMoving(R: seq<Placement>, rows: seq<bool>, cols: seq<bool>, row: int, column: int)
    requires DistinctRows(R) && DistinctColumns(R) && UsedRows(R, rows) && UsedColumnsExcept(R, cols, -1)
    requires 0 <= row < |rows| && !rows[row]
    ensures DistinctRows(R + [Placement(column, row)])
    ensures DistinctColumnsExcept(R + [Placement(column, row)], |R|)
    ensures UsedColumnsExcept(R + [Placement(column, row)], cols, |R|)
  {
    var R' := R + [Placement(column, row)];
    forall c | 0 <= c < |cols|
      ensures cols[c] <==> exists a :: 0 <= a < |R'| && a != |R| && R'[a].x == c
    {
      if cols[c] {
        var a :| 0 <= a < |R| && a != -1 && R[a].x == c;
        assert R'[a].x == c;
      }
    }
  }

  /** A successful reassignment in row `row` makes it a used row. */
  lemma RowNowUsed(R: seq<Placement>, R': seq<Placement>, rows: seq<bool>, row: int)
    requires UsedRows(R, rows) && 0 <= row < |rows| && |R'| == |R| + 1 && R'[|R|].y == row
    requires forall k :: 0 <= k < |R| ==> R'[k].y == R[k].y
    ensures UsedRows(R', rows[row := true])
  {
    var rows' := rows[row := true];
    forall r | 0 <= r < |rows'|
      ensures rows'[r] <==> exists a :: 0 <= a < |R'| && R'[a].y == r
    {
      if r == row {
        assert R'[|R|].y == r;
      } else if rows[r] {
        var a :| 0 <= a < |R| && R[a].y == r;
        assert R'[a].y == r;
      } else {
        forall a | 0 <= a < |R'|
          ensures R'[a].y != r
        {
          if a < |R| {
            assert R[a].y != r;
          }
        }
      }
    }
  }

  /** A placement moved back to where it was leaves the sequence as it was. */
  lemma RestoreSame(R: seq<Placement>, cf: int, p: Placement)
    requires 0 <= cf < |R|
    ensures R[cf := p][cf := R[cf]] == R
  {
  }

  class APSO {
    /** The assignment: one placement per row of the (possibly transposed) matrix. */
    var results: seq<Placement>
    /** Dimensions of the matrix as solved; `width >= height` (it is transposed when taller than wide). */
    const width: nat
    const height: nat
    /** Whether the matrix was solved transposed; the results are then flipped back. */
    const flipped: bool
    /** Whether the assignment loop came to its end within the fuel it was given. */
    var finished: bool

    /** Dimensions of the matrix as the caller gave it. */
    function OrigWidth(): (w: nat)
    {
      if flipped then height else width
    }

    function OrigHeight(): (h: nat)
    {
      if flipped then width else height
    }

    /** Position of cell (row, column) in `values`. */
    function Idx(row: int, column: int): (p: int)
      requires 0 <= row < height && 0 <= column < width
      ensures 0 <= p < width * height && p / width == row && p % width == column
    {
      RowMajor(row, column, height, width)
    }

    ghost predicate Cells(values: array<int>)
      reads values
    {
      forall p :: 0 <= p < values.Length ==> IsCell(values[p])
    }

    /** A matrix whose every cell, read by row and column, is in range is in range everywhere. */
    lemma CellsFromGrid(values: array<int>)
      requires values.Length == width * height
      requires forall r, c :: 0 <= r < height && 0 <= c < width ==> IsCell(values[Idx(r, c)])
      ensures Cells(values)
    {
      forall p | 0 <= p < values.Length
        ensures IsCell(values[p])
      {
        CellOfIdx(p, height, width);
        assert p == Idx(p / width, p % width);
      }
    }

    /** Row `row` of the matrix. */
    ghost function RowOf(values: array<int>, row: int): (s: seq<int>)
      reads values
      requires values.Length == width * height && 0 <= row < height
      ensures |s| == width && forall c :: 0 <= c < width ==> s[c] == values[Idx(row, c)]
    {
      seq(width, c requires 0 <= c < width reads values => values[Idx(row, c)])
    }

    /** Column `column` of the matrix. */
    ghost function ColumnOf(values: array<int>, column: int): (s: seq<int>)
      reads values
      requires values.Length == width * height && 0 <= column < width
      ensures |s| == height && forall r :: 0 <= r < height ==> s[r] == values[Idx(r, column)]
    {
      seq(height, r requires 0 <= r < height reads values => values[Idx(r, column)])
    }

    /** Every placement lies inside the matrix as solved. */
    ghost predicate Placed(R: seq<Placement>)
    {
      forall k :: 0 <= k < |R| ==> 0 <= R[k].x < width && 0 <= R[k].y < height
    }

    /** Every placement lies on a zero. */
    ghost predicate OnZeros(values: array<int>, R: seq<Placement>)
      reads values
      requires values.Length == width * height && Placed(R)
    {
      forall k :: 0 <= k < |R| ==> values[Idx(R[k].y, R[k].x)] == 0
    }

    /** The bookkeeping of `getResults` agrees with `results`. */
    ghost predicate Consistent(values: array<int>, rows: seq<bool>, cols: seq<bool>)
      reads this, values
      requires values.Length == width * height
    {
      && Placed(results) && OnZeros(values, results)
      && DistinctRows(results) && DistinctColumns(results)
      && |rows| == height && |cols| == width
      && UsedRows(results, rows) && UsedColumnsExcept(results, cols, -1)
    }

    /** The least cell of row `row`, scanned from column 0 and stopping at a zero (`rowReduce`). */
    method RowMin(values: array<int>, row: int) returns (min: int)
      requires values.Length == width * height && Cells(values) && 0 <= row < height && width > 0
      ensures min == MinOf(RowOf(values, row))
    {
      ghost var s := RowOf(values, row);
      ghost var at := 0;
      min := values[Idx(row, 0)];
      if min != 0 {
        var column := 1;
        while column < width
          invariant 1 <= column <= width && 0 <= at < width && s[at] == min
          invariant forall c :: 0 <= c < column ==> min <= s[c]
        {
          if values[Idx(row, column)] < min {
            min := values[Idx(row, column)];
            at := column;
            if min == 0 {
              break;
            }
          }
          column := column + 1;
        }
      }
      assert s[at] == min && forall c :: 0 <= c < width ==> min <= s[c];
    }

    /** Subtract `min` from every cell of row `row` (`rowReduce`). */
    method SubtractRow(values: array<int>, row: int, min: int)
      requires values.Length == width * height && 0 <= row < height
      modifies values
      ensures forall r, c :: 0 <= r < height && 0 <= c < width ==>
        values[Idx(r, c)] == if r == row then old(values[Idx(r, c)]) - min else old(values[Idx(r, c)])
    {
      var column := 0;
      while column < width
        invariant 0 <= column <= width
        invariant forall r, c :: 0 <= r < height && 0 <= c < width ==>
          values[Idx(r, c)] == if r == row && c < column then old(values[Idx(r, c)]) - min else old(values[Idx(r, c)])
      {
        values[Idx(row, column)] := values[Idx(row, column)] - min;
        column := column + 1;
      }
    }

    /**
     * `rowReduce`: subtract from each row its least cell.  Every row then
     * holds a zero, no cell goes below zero, and a row whose least cell is
     * already zero is left as it was.
     */
    method RowReduce(values: array<int>)
      requires values.Length == width * height && Cells(values) && (height > 0 ==> width > 0)
      modifies values
      ensures Cells(values)
      ensures forall r, c :: 0 <= r < height && 0 <= c < width ==>
        values[Idx(r, c)] == old(values[Idx(r, c)]) - MinOf(old(RowOf(values, r)))
      ensures forall r :: 0 <= r < height ==> 0 in RowOf(values, r)
    {
      var row := 0;
      while row < height
        invariant 0 <= row <= height && Cells(values)
        invariant forall r, c :: 0 <= r < height && 0 <= c < width ==>
          values[Idx(r, c)] == if r < row then old(values[Idx(r, c)]) - MinOf(old(RowOf(values, r))) else old(values[Idx(r, c)])
      {
        assert RowOf(values, row) == old(RowOf(values, row));
        var min := RowMin(values, row);
        if min != 0 {
          SubtractRow(values, row, min);
          CellsFromGrid(values);
        }
        row := row + 1;
      }
      forall r | 0 <= r < height
        ensures 0 in RowOf(values, r)
      {
        ghost var s := old(RowOf(values, r));
        ghost var z :| 0 <= z < width && s[z] == MinOf(s);
        assert RowOf(values, r)[z] == 0;
      }
    }

    /** The least cell of column `column`, scanned from row 0 and stopping at a zero (`columnReduce`). */
    method ColumnMin(values: array<int>, column: int) returns (min: int)
      requires values.Length == width * height && Cells(values) && 0 <= column < width && height > 0
      ensures min == MinOf(ColumnOf(values, column))
    {
      ghost var s := ColumnOf(values, column);
      ghost var at := 0;
      min := values[Idx(0, column)];
      if min != 0 {
        var row := 1;
        while row < height
          invariant 1 <= row <= height && 0 <= at < height && s[at] == min
          invariant forall r :: 0 <= r < row ==> min <= s[r]
        {
          if values[Idx(row, column)] < min {
            min := values[Idx(row, column)];
            at := row;
            if min == 0 {
              break;
            }
          }
          row := row + 1;
        }
      }
      assert s[at] == min && forall r :: 0 <= r < height ==> min <= s[r];
    }

    /** Subtract `min` from every cell of column `column` (`columnReduce`). */
    method SubtractColumn(values: array<int>, column: int, min: int)
      requires values.Length == width * height && 0 <= column < width
      modifies values
      ensures forall r, c :: 0 <= r < height && 0 <= c < width ==>
        values[Idx(r, c)] == if c == column then old(values[Idx(r, c)]) - min else old(values[Idx(r, c)])
    {
      var row := 0;
      while row < height
        invariant 0 <= row <= height
        invariant forall r, c :: 0 <= r < height && 0 <= c < width ==>
          values[Idx(r, c)] == if c == column && r < row then old(values[Idx(r, c)]) - min else old(values[Idx(r, c)])
      {
        values[Idx(row, column)] := values[Idx(row, column)] - min;
        row := row + 1;
      }
    }

    /** `columnReduce`: subtract from each column its least cell; every column then holds a zero. */
    method ColumnReduce(values: array<int>)
      requires values.Length == width * height && Cells(values) && (width > 0 ==> height > 0)
      modifies values
      ensures Cells(values)
      ensures forall r, c :: 0 <= r < height && 0 <= c < width ==>
        values[Idx(r, c)] == old(values[Idx(r, c)]) - MinOf(old(ColumnOf(values, c)))
      ensures forall c :: 0 <= c < width ==> 0 in ColumnOf(values, c)
    {
      var column := 0;
      while column < width
        invariant 0 <= column <= width && Cells(values)
        invariant forall r, c :: 0 <= r < height && 0 <= c < width ==>
          values[Idx(r, c)] == if c < column then old(values[Idx(r, c)]) - MinOf(old(ColumnOf(values, c))) else old(values[Idx(r, c)])
      {
        assert ColumnOf(values, column) == old(ColumnOf(values, column));
        var min := ColumnMin(values, column);
        if min != 0 {
          SubtractColumn(values, column, min);
          CellsFromGrid(values);
        }
        column := column + 1;
      }
      forall c | 0 <= c < width
        ensures 0 in ColumnOf(values, c)
      {
        ghost var s := old(ColumnOf(values, c));
        ghost var z :| 0 <= z < height && s[z] == MinOf(s);
        assert ColumnOf(values, c)[z] == 0;
      }
    }

    /**
     * `valueSwap`: placement `mv`, in row `y`, has just been put in column
     * `x`.  Find the other placement in column `x` whose row is not visited,
     * move it to another zero of its row, a free column first, otherwise an
     * occupied one, recursing on the placement found there.  On success every
     * column is used once; on failure the placements and `usedColumns` are as
     * they were.  Visited rows stay visited either way.
     */
    method ValueSwap(values: array<int>, visitedRows: array<bool>, usedColumns: array<bool>, x: int, y: int, ghost mv: int)
      returns (ok: bool)
      requires values.Length == width * height && visitedRows.Length == height && usedColumns.Length == width
      requires visitedRows != usedColumns
      requires Placed(results) && OnZeros(values, results) && DistinctRows(results)
      requires 0 <= mv < |results| && results[mv] == Placement(x, y) && visitedRows[y]
      requires DistinctColumnsExcept(results, mv) && UsedColumnsExcept(results, usedColumns[..], mv)
      modifies this`results, visitedRows, usedColumns
      decreases Unflagged(visitedRows[..]), 0
      ensures |results| == |old(results)| && forall k :: 0 <= k < |results| ==> results[k].y == old(results[k].y)
      ensures Placed(results) && OnZeros(values, results) && DistinctRows(results)
      ensures ok ==> DistinctColumns(results) && UsedColumnsExcept(results, usedColumns[..], -1)
      ensures !ok ==> results == old(results) && usedColumns[..] == old(usedColumns[..])
      ensures forall r :: 0 <= r < height && old(visitedRows[r]) ==> visitedRows[r]
    {
      var cf := FindConflict(visitedRows, x);
      if cf == |results| {
        return false;
      }
      var cy := results[cf].y;
      visitedRows[cy] := true;
      ghost var column;
      ok, column := TakeFreeColumn(values, usedColumns, cf, mv);
      if ok {
        return;
      }
      UnflaggedShrinks(old(visitedRows[..]), visitedRows[..], cy);
      ok := SwapUsedColumns(values, visitedRows, usedColumns, cf, mv);
    }

    /**
     * The second column loop of `valueSwap`: try each zero of
     * row `results[cf].y` in a used column, moving placement `cf` there and
     * resolving the new clash recursively; a failed attempt puts `cf` back.
     */
    method SwapUsedColumns(values: array<int>, visitedRows: array<bool>, usedColumns: array<bool>, cf: int, ghost mv: int)
      returns (ok: bool)
      requires values.Length == width * height && visitedRows.Length == height && usedColumns.Length == width
      requires visitedRows != usedColumns
      requires Placed(results) && OnZeros(values, results) && DistinctRows(results)
      requires 0 <= mv < |results| && 0 <= cf < |results| && mv != cf && results[mv].x == results[cf].x
      requires visitedRows[results[cf].y]
      requires DistinctColumnsExcept(results, mv) && UsedColumnsExcept(results, usedColumns[..], mv)
      modifies this`results, visitedRows, usedColumns
      decreases Unflagged(visitedRows[..]), 1
      ensures |results| == |old(results)| && forall k :: 0 <= k < |results| ==> results[k].y == old(results[k].y)
      ensures Placed(results) && OnZeros(values, results) && DistinctRows(results)
      ensures ok ==> DistinctColumns(results) && UsedColumnsExcept(results, usedColumns[..], -1)
      ensures !ok ==> results == old(results) && usedColumns[..] == old(usedColumns[..])
      ensures forall r :: 0 <= r < height && old(visitedRows[r]) ==> visitedRows[r]
    {
      ghost var R := results;
      var x, cy := results[cf].x, results[cf].y;
      for column := 0 to width
        invariant results == R && usedColumns[..] == old(usedColumns[..])
        invariant forall r :: 0 <= r < height && old(visitedRows[r]) ==> visitedRows[r]
      {
        if usedColumns[column] && values[Idx(cy, column)] == 0 {
          HandOver(results, usedColumns[..], mv, cf, column);
          results := results[cf := Placement(column, cy)];
          UnflaggedGrow(old(visitedRows[..]), visitedRows[..]);
          ok := ValueSwap(values, visitedRows, usedColumns, column, cy, cf);
          if ok {
            return;
          }
          RestoreSame(R, cf, Placement(column, cy));
          results := results[cf := Placement(x, cy)];
        }
      }
      return false;
    }

    /** The first placement in column `x` whose row is not yet visited, or `|results|` (`valueSwap`). */
    method FindConflict(visitedRows: array<bool>, x: int) returns (cf: int)
      requires Placed(results) && visitedRows.Length == height
      ensures 0 <= cf <= |results|
      ensures cf < |results| ==> results[cf].x == x && !visitedRows[results[cf].y]
      ensures forall k :: 0 <= k < cf ==> !(results[k].x == x && !visitedRows[results[k].y])
    {
      cf := 0;
      while cf < |results| && !(results[cf].x == x && !visitedRows[results[cf].y])
        invariant 0 <= cf <= |results|
        invariant forall k :: 0 <= k < cf ==> !(results[k].x == x && !visitedRows[results[k].y])
      {
        cf := cf + 1;
      }
    }

    /**
     * The first column loop of `valueSwap`: move placement
     * `cf`, which shares its column with `mv`, to a zero in a free column of
     * its row, if there is one.  Then every column is used once.
     */
    method TakeFreeColumn(values: array<int>, usedColumns: array<bool>, cf: int, ghost mv: int) returns (ok: bool, ghost column: int)
      requires values.Length == width * height && usedColumns.Length == width
      requires Placed(results) && OnZeros(values, results) && DistinctRows(results)
      requires 0 <= mv < |results| && 0 <= cf < |results| && mv != cf && results[mv].x == results[cf].x
      requires DistinctColumnsExcept(results, mv) && UsedColumnsExcept(results, usedColumns[..], mv)
      modifies this`results, usedColumns
      ensures |results| == |old(results)| && forall k :: 0 <= k < |results| ==> results[k].y == old(results[k].y)
      ensures Placed(results) && OnZeros(values, results) && DistinctRows(results)
      ensures ok ==> DistinctColumns(results) && UsedColumnsExcept(results, usedColumns[..], -1)
      ensures !ok ==> results == old(results) && usedColumns[..] == old(usedColumns[..])
      ensures !ok ==> forall c :: 0 <= c < width && !usedColumns[c] ==> values[Idx(results[cf].y, c)] != 0
      ensures ok ==> 0 <= column < width && !old(usedColumns[column]) && values[Idx(old(results[cf]).y, column)] == 0
      ensures ok ==> forall c :: 0 <= c < column && !old(usedColumns[c]) ==> values[Idx(old(results[cf]).y, c)] != 0
      ensures ok ==> results == old(results)[cf := Placement(column, old(results[cf]).y)]
      ensures ok ==> usedColumns[..] == old(usedColumns[..])[column := true]
    {
      var cy := results[cf].y;
      for c := 0 to width
        invariant results == old(results) && usedColumns[..] == old(usedColumns[..])
        invariant forall c' :: 0 <= c' < c && !usedColumns[c'] ==> values[Idx(cy, c')] != 0
      {
        if !usedColumns[c] && values[Idx(cy, c)] == 0 {
          MoveToFree(results, usedColumns[..], mv, cf, c);
          results := results[cf := Placement(c, cy)];
          usedColumns[c] := true;
          return true, c;
        }
      }
      return false, -1;
    }

    /** The scan "skipping step 2" of `getResults`: the first free column holding a zero in the row, or `width`. */
    method FreeZero(values: array<int>, usedColumns: array<bool>, row: int) returns (column: int)
      requires values.Length == width * height && usedColumns.Length == width && 0 <= row < height
      ensures column == FirstOpenZero(values[..], usedColumns[..], row, 0)
      ensures 0 <= column <= width
      ensures column < width ==> !usedColumns[column] && values[Idx(row, column)] == 0
      ensures forall c :: 0 <= c < column ==> usedColumns[c] || values[Idx(row, c)] != 0
    {
      column := 0;
      while column < width && (usedColumns[column] || values[Idx(row, column)] != 0)
        invariant 0 <= column <= width
        invariant forall c :: 0 <= c < column ==> usedColumns[c] || values[Idx(row, c)] != 0
      {
        column := column + 1;
      }
      assert column == FirstOpenZero(values[..], usedColumns[..], row, 0);
    }

    /**
     * One row of the assignment pass of `getResults`: place
     * the row on a zero in a free column; failing that, on each zero in turn,
     * moving the placement already in that column by `ValueSwap`.
     */
    method AssignRow(values: array<int>, usedRows: array<bool>, usedColumns: array<bool>, forStep2: array<bool>, row: int)
      returns (placed: bool)
      requires values.Length == width * height && forStep2.Length == height
      requires usedRows != usedColumns && usedRows != forStep2 && usedColumns != forStep2
      requires Consistent(values, usedRows[..], usedColumns[..])
      requires 0 <= row < height && !usedRows[row]
      modifies this`results, usedRows, usedColumns, forStep2
      ensures Consistent(values, usedRows[..], usedColumns[..])
      ensures placed ==> |results| == |old(results)| + 1 && usedRows[row] && results[|old(results)|].y == row
      ensures placed ==> usedRows[..] == old(usedRows[..])[row := true]
      ensures placed ==> forall k :: 0 <= k < |old(results)| ==> results[k].y == old(results[k]).y
      ensures !placed ==> results == old(results) && usedRows[..] == old(usedRows[..]) && usedColumns[..] == old(usedColumns[..])
      ensures !placed ==> forall c :: 0 <= c < width && !old(usedColumns[c]) ==> values[Idx(row, c)] != 0
      ensures var c0 := FirstOpenZero(values[..], old(usedColumns[..]), row, 0);
        c0 < width ==> placed && results == old(results) + [Placement(c0, row)] && usedColumns[..] == old(usedColumns[..])[c0 := true]
    {
      var free := FreeZero(values, usedColumns, row);
      if free < width {
        PlaceFree(results, usedRows[..], usedColumns[..], row, free);
        results := results + [Placement(free, row)];
        usedColumns[free] := true;
        usedRows[row] := true;
        return true;
      }
      placed := SwapIntoRow(values, usedRows, usedColumns, forStep2, row);
    }

    /**
     * The scan "using step 2" of `getResults`: mark the row visited and try
     * each zero of the row in turn, moving the placement already in its
     * column by `ValueSwap`.
     */
    method SwapIntoRow(values: array<int>, usedRows: array<bool>, usedColumns: array<bool>, forStep2: array<bool>, row: int)
      returns (placed: bool)
      requires values.Length == width * height && forStep2.Length == height
      requires usedRows != usedColumns && usedRows != forStep2 && usedColumns != forStep2
      requires Consistent(values, usedRows[..], usedColumns[..])
      requires 0 <= row < height && !usedRows[row]
      modifies this`results, usedRows, usedColumns, forStep2
      ensures Consistent(values, usedRows[..], usedColumns[..])
      ensures placed ==> |results| == |old(results)| + 1 && usedRows[row] && results[|old(results)|].y == row
      ensures placed ==> usedRows[..] == old(usedRows[..])[row := true]
      ensures placed ==> forall k :: 0 <= k < |old(results)| ==> results[k].y == old(results[k]).y
      ensures !placed ==> results == old(results) && usedRows[..] == old(usedRows[..]) && usedColumns[..] == old(usedColumns[..])
    {
      forStep2[row] := true;
      for column := 0 to width
        invariant results == old(results) && usedRows[..] == old(usedRows[..]) && usedColumns[..] == old(usedColumns[..])
        invariant forStep2[row]
      {
        if values[Idx(row, column)] == 0 {
          ghost var R := results;
          PlaceMoving(results, usedRows[..], usedColumns[..], row, column);
          results := results + [Placement(column, row)];
          var ok := ValueSwap(values, forStep2, usedColumns, column, row, |results| - 1);
          if ok {
            RowNowUsed(R, results, usedRows[..], row);
            usedRows[row] := true;
            return true;
          }
          results := results[..|results| - 1];
          assert results == R;
        }
      }
      return false;
    }

    /**
     * `getResults`: passes over the rows assign every row it can; after each
     * pass that leaves rows unassigned the matrix is shifted by `DrawLines`
     * and a new pass starts.  It returns only once every row is assigned, so
     * it never returns for a matrix with no rows; `fuel` bounds the passes.
     */
    method GetResults(values: array<int>, fuel: nat) returns (done: bool)
      requires values.Length == width * height && Cells(values) && results == []
      modifies this`results, values
      ensures Cells(values)
      ensures Placed(results) && OnZeros(values, results) && DistinctRows(results) && DistinctColumns(results)
      ensures done ==> |results| == height
      ensures height == 0 ==> !done
    {
      var usedRows := new bool[height](_ => false);
      var usedColumns := new bool[width](_ => false);
      var f := fuel;
      while true
        invariant fresh(usedRows) && fresh(usedColumns) && usedRows != usedColumns
        invariant Cells(values) && Consistent(values, usedRows[..], usedColumns[..])
        decreases f
      {
        var forStep2 := new bool[height](_ => false);
        var row := 0;
        while row < height
          invariant 0 <= row <= height
          invariant Cells(values) && Consistent(values, usedRows[..], usedColumns[..])
        {
          if !usedRows[row] {
            var placed := AssignRow(values, usedRows, usedColumns, forStep2, row);
            if placed && |results| == height {
              return true;
            }
          }
          row := row + 1;
        }
        if f == 0 {
          return false;
        }
        f := f - 1;
        ghost var rows, columns, min := DrawLines(values);
      }
    }

    /**
     * The first column from `from` on whose flag is false and whose cell in
     * row `row` is zero, or `width` when there is none.
     */
    ghost function FirstOpenZero(m: seq<int>, flags: seq<bool>, row: int, from: int): (c: int)
      requires |m| == width * height && |flags| == width && 0 <= row < height && 0 <= from <= width
      ensures from <= c <= width
      ensures c < width ==> !flags[c] && m[Idx(row, c)] == 0
      ensures forall c' :: from <= c' < c ==> flags[c'] || m[Idx(row, c')] != 0
      decreases width - from
    {
      if from == width then width
      else if !flags[from] && m[Idx(row, from)] == 0 then from
      else FirstOpenZero(m, flags, row, from + 1)
    }

    /**
     * Modified step 2 of `drawLines` for one row, on the covers as values:
     * an uncovered row with a zero in an uncovered column covers the first
     * such column and uncovers the row of the first placement in it.
     */
    ghost function CoverStep(m: seq<int>, R: seq<Placement>, rows: seq<bool>, cols: seq<bool>, row: int): (s: (seq<bool>, seq<bool>))
      requires |m| == width * height && |rows| == height && |cols| == width && 0 <= row < height
      requires Placed(R)
      ensures |s.0| == height && |s.1| == width
      ensures forall c :: 0 <= c < width && cols[c] ==> s.1[c]
      ensures s.1 == cols ==> s.0 == rows
    {
      var c := FirstOpenZero(m, cols, row, 0);
      if rows[row] || c == width then (rows, cols)
      else
        var k := FirstIn(R, c);
        (if k < |R| then rows[R[k].y := false] else rows, cols[c := true])
    }

    /** The covers after modified step 2 has been applied to rows 0 to n - 1 in turn. */
    ghost function PassUpTo(m: seq<int>, R: seq<Placement>, rows: seq<bool>, cols: seq<bool>, n: int): (s: (seq<bool>, seq<bool>))
      requires |m| == width * height && |rows| == height && |cols| == width && 0 <= n <= height
      requires Placed(R)
      ensures |s.0| == height && |s.1| == width
      ensures forall c :: 0 <= c < width && cols[c] ==> s.1[c]
      ensures s.1 == cols ==> s.0 == rows
      decreases n
    {
      if n == 0 then (rows, cols)
      else
        var p := PassUpTo(m, R, rows, cols, n - 1);
        var s := CoverStep(m, R, p.0, p.1, n - 1);
        assert s.1 == cols ==> p.1 == cols by {
          if s.1 == cols {
            forall c | 0 <= c < width
              ensures p.1[c] == cols[c]
            {
              if p.1[c] {
                assert s.1[c];
              }
            }
          }
        }
        s
    }

    /**
     * The covers `drawLines` ends with: passes of modified step 2 over all
     * rows, repeated until a pass draws no new line.  The result is a fixpoint
     * of a pass.
     */
    ghost function Lines(m: seq<int>, R: seq<Placement>, rows: seq<bool>, cols: seq<bool>): (s: (seq<bool>, seq<bool>))
      requires |m| == width * height && |rows| == height && |cols| == width
      requires Placed(R)
      ensures |s.0| == height && |s.1| == width
      ensures PassUpTo(m, R, s.0, s.1, height) == s
      decreases Unflagged(cols)
    {
      var p := PassUpTo(m, R, rows, cols, height);
      if p.1 == cols then (rows, cols)
      else
        assert exists c :: 0 <= c < width && p.1[c] != cols[c];
        var c :| 0 <= c < width && !cols[c] && p.1[c];
        UnflaggedShrinks(cols, p.1, c);
        Lines(m, R, p.0, p.1)
    }

    /** One more row of a pass: a step from the covers after `n` rows gives the covers after `n + 1`. */
    lemma PassNext(m: seq<int>, R: seq<Placement>, rows: seq<bool>, cols: seq<bool>, n: int, rows1: seq<bool>, cols1: seq<bool>, rows2: seq<bool>, cols2: seq<bool>)
      requires |m| == width * height && |rows| == height && |cols| == width && 0 <= n < height
      requires Placed(R)
      requires rows1 == PassUpTo(m, R, rows, cols, n).0 && cols1 == PassUpTo(m, R, rows, cols, n).1
      requires (rows2, cols2) == CoverStep(m, R, rows1, cols1, n)
      ensures rows2 == PassUpTo(m, R, rows, cols, n + 1).0 && cols2 == PassUpTo(m, R, rows, cols, n + 1).1
    {
    }

    /** A pass over rows 0 to n - 1 that draws no line leaves none of those rows with an uncovered zero. */
    lemma {:induction false} PassClosed(m: seq<int>, R: seq<Placement>, rows: seq<bool>, cols: seq<bool>, n: int)
      requires |m| == width * height && |rows| == height && |cols| == width && 0 <= n <= height
      requires Placed(R)
      requires PassUpTo(m, R, rows, cols, n).1 == cols
      ensures forall r :: 0 <= r < n ==> RowClosed(m, rows, cols, r)
      decreases n
    {
      if n > 0 {
        var p := PassUpTo(m, R, rows, cols, n - 1);
        forall c | 0 <= c < width
          ensures p.1[c] == cols[c]
        {
          if p.1[c] {
            assert CoverStep(m, R, p.0, p.1, n - 1).1[c];
          }
        }
        assert p.1 == cols;
        PassClosed(m, R, rows, cols, n - 1);
      }
    }

    /** A whole pass either draws no line, changing nothing and leaving no uncovered zero, or covers a new column. */
    lemma PassOutcome(m: seq<int>, R: seq<Placement>, rows0: seq<bool>, cols0: seq<bool>, rows: seq<bool>, cols: seq<bool>)
      requires |m| == width * height && |rows0| == height && |cols0| == width
      requires Placed(R)
      requires rows == PassUpTo(m, R, rows0, cols0, height).0 && cols == PassUpTo(m, R, rows0, cols0, height).1
      ensures cols == cols0 ==> rows == rows0 && NoOpenZero(m, rows, cols)
      ensures cols != cols0 ==> Unflagged(cols) < Unflagged(cols0)
    {
      if cols == cols0 {
        PassClosed(m, R, rows0, cols0, height);
      } else {
        var c :| 0 <= c < width && cols[c] != cols0[c];
        UnflaggedShrinks(cols0, cols, c);
      }
    }

    /** One unfolding of `Lines`: a pass that draws nothing is the end, and otherwise the passes go on from its covers. */
    lemma LinesStep(m: seq<int>, R: seq<Placement>, rows: seq<bool>, cols: seq<bool>)
      requires |m| == width * height && |rows| == height && |cols| == width
      requires Placed(R)
      ensures var p := PassUpTo(m, R, rows, cols, height);
        && (p.1 == cols ==> Lines(m, R, rows, cols) == (rows, cols) == p)
        && (p.1 != cols ==> Lines(m, R, rows, cols) == Lines(m, R, p.0, p.1))
    {
    }

    /** The covers `drawLines` starts from: every assigned row, and no column. */
    lemma StartCovers(rows: seq<bool>, cols: seq<bool>)
      requires |rows| == height && |cols| == width
      requires forall r :: 0 <= r < height ==> (rows[r] <==> exists k :: 0 <= k < |results| && results[k].y == r)
      requires forall c :: 0 <= c < width ==> !cols[c]
      ensures (rows, cols) == (AssignedRows(results, height), seq(width, _ => false))
    {
      assert rows == AssignedRows(results, height);
      assert cols == seq(width, _ => false);
    }

    /**
     * Modified step 2 of `drawLines` for one row: if the row
     * is uncovered and has a zero in an uncovered column, cover the first such
     * column and uncover the row of the placement in it.
     */
    method CoverZero(values: array<int>, coveredRows: array<bool>, coveredColumns: array<bool>, row: int)
      returns (drawn: bool, ghost col: int)
      requires values.Length == width * height && coveredRows.Length == height && coveredColumns.Length == width
      requires coveredRows != coveredColumns && 0 <= row < height
      requires Placed(results) && DistinctColumns(results)
      requires LinesOk(results, coveredRows[..], coveredColumns[..])
      modifies coveredRows, coveredColumns
      ensures LinesOk(results, coveredRows[..], coveredColumns[..])
      ensures forall c :: 0 <= c < width && old(coveredColumns[c]) ==> coveredColumns[c]
      ensures forall r :: 0 <= r < height && coveredRows[r] ==> old(coveredRows[r])
      ensures !drawn ==> coveredRows[..] == old(coveredRows[..]) && coveredColumns[..] == old(coveredColumns[..])
      ensures !drawn ==> RowClosed(values[..], coveredRows[..], coveredColumns[..], row)
      ensures drawn ==> exists c :: 0 <= c < width && !old(coveredColumns[c]) && coveredColumns[c]
      ensures drawn ==> 0 <= col < width && !old(coveredRows[row]) && !old(coveredColumns[col]) && values[Idx(row, col)] == 0
      ensures drawn ==> forall c :: 0 <= c < col && !old(coveredColumns[c]) ==> values[Idx(row, c)] != 0
      ensures drawn ==> coveredColumns[..] == old(coveredColumns[..])[col := true]
      ensures drawn ==> forall k :: 0 <= k < |results| && results[k].x == col ==> coveredRows[..] == old(coveredRows[..])[results[k].y := false]
      ensures drawn && (forall k :: 0 <= k < |results| ==> results[k].x != col) ==> coveredRows[..] == old(coveredRows[..])
      ensures (coveredRows[..], coveredColumns[..]) == CoverStep(values[..], results, old(coveredRows[..]), old(coveredColumns[..]), row)
    {
      drawn, col := false, -1;
      if coveredRows[row] {
        return;
      }
      for column := 0 to width
        invariant coveredRows[..] == old(coveredRows[..]) && coveredColumns[..] == old(coveredColumns[..])
        invariant forall c :: 0 <= c < column && !coveredColumns[c] ==> values[Idx(row, c)] != 0
      {
        if !coveredColumns[column] && values[Idx(row, column)] == 0 {
          coveredColumns[column] := true;
          drawn, col := true, column;
          var k := 0;
          while k < |results| && results[k].x != column
            invariant 0 <= k <= |results|
            invariant forall k' :: 0 <= k' < k ==> results[k'].x != column
          {
            k := k + 1;
          }
          if k < |results| {
            coveredRows[results[k].y] := false;
          }
          assert column == FirstOpenZero(values[..], old(coveredColumns[..]), row, 0);
          assert k == FirstIn(results, column);
          forall k' | 0 <= k' < |results| && coveredColumns[results[k'].x]
            ensures !coveredRows[results[k'].y]
          {
            if results[k'].x == column {
              assert k' == k;
            }
          }
          return;
        }
      }
    }

    /** Row `r`, when uncovered, has no zero in an uncovered column. */
    ghost predicate RowClosed(m: seq<int>, rowsCovered: seq<bool>, columnsCovered: seq<bool>, r: int)
      requires |m| == width * height && |rowsCovered| == height && |columnsCovered| == width && 0 <= r < height
    {
      !rowsCovered[r] ==> forall c :: 0 <= c < width && !columnsCovered[c] ==> m[Idx(r, c)] != 0
    }

    /**
     * One pass of modified step 2 of `drawLines` over all rows.  A pass that
     * draws no line changes nothing and leaves no zero uncovered; otherwise
     * it covers at least one more column.
     */
    method DrawPass(values: array<int>, coveredRows: array<bool>, coveredColumns: array<bool>) returns (newLine: bool)
      requires values.Length == width * height && coveredRows.Length == height && coveredColumns.Length == width
      requires coveredRows != coveredColumns && Placed(results) && DistinctColumns(results)
      requires forall r :: 0 <= r < height && coveredRows[r] ==> exists k :: 0 <= k < |results| && results[k].y == r
      requires LinesOk(results, coveredRows[..], coveredColumns[..])
      modifies coveredRows, coveredColumns
      ensures forall r :: 0 <= r < height && coveredRows[r] ==> exists k :: 0 <= k < |results| && results[k].y == r
      ensures LinesOk(results, coveredRows[..], coveredColumns[..])
      ensures !newLine ==> coveredRows[..] == old(coveredRows[..]) && coveredColumns[..] == old(coveredColumns[..])
      ensures !newLine ==> NoOpenZero(values[..], coveredRows[..], coveredColumns[..])
      ensures newLine ==> Unflagged(coveredColumns[..]) < old(Unflagged(coveredColumns[..]))
      ensures (coveredRows[..], coveredColumns[..]) == PassUpTo(values[..], results, old(coveredRows[..]), old(coveredColumns[..]), height)
      ensures newLine == (coveredColumns[..] != old(coveredColumns[..]))
    {
      ghost var rows0, columns0 := coveredRows[..], coveredColumns[..];
      newLine := false;
      for row := 0 to height
        invariant forall r :: 0 <= r < height && coveredRows[r] ==> exists k :: 0 <= k < |results| && results[k].y == r
        invariant LinesOk(results, coveredRows[..], coveredColumns[..])
        invariant coveredRows[..] == PassUpTo(values[..], results, rows0, columns0, row).0
        invariant coveredColumns[..] == PassUpTo(values[..], results, rows0, columns0, row).1
        invariant newLine == (coveredColumns[..] != columns0)
      {
        newLine := PassRow(values, coveredRows, coveredColumns, row, rows0, columns0, newLine);
      }
      ghost var rows, columns := coveredRows[..], coveredColumns[..];
      PassOutcome(values[..], results, rows0, columns0, rows, columns);
      if newLine {
        assert Unflagged(columns) < Unflagged(columns0);
      } else {
        assert rows == rows0 && columns == columns0 && NoOpenZero(values[..], rows, columns);
      }
    }

    /** Row `row` of a pass that started from covers `rows0` and `columns0`; `newLine` records whether a line was drawn. */
    method PassRow(values: array<int>, coveredRows: array<bool>, coveredColumns: array<bool>, row: int,
                   ghost rows0: seq<bool>, ghost columns0: seq<bool>, newLine: bool) returns (newLine': bool)
      requires values.Length == width * height && coveredRows.Length == height && coveredColumns.Length == width
      requires coveredRows != coveredColumns && Placed(results) && DistinctColumns(results) && 0 <= row < height
      requires |rows0| == height && |columns0| == width
      requires forall r :: 0 <= r < height && coveredRows[r] ==> exists k :: 0 <= k < |results| && results[k].y == r
      requires LinesOk(results, coveredRows[..], coveredColumns[..])
      requires coveredRows[..] == PassUpTo(values[..], results, rows0, columns0, row).0
      requires coveredColumns[..] == PassUpTo(values[..], results, rows0, columns0, row).1
      requires newLine == (coveredColumns[..] != columns0)
      modifies coveredRows, coveredColumns
      ensures forall r :: 0 <= r < height && coveredRows[r] ==> exists k :: 0 <= k < |results| && results[k].y == r
      ensures LinesOk(results, coveredRows[..], coveredColumns[..])
      ensures coveredRows[..] == PassUpTo(values[..], results, rows0, columns0, row + 1).0
      ensures coveredColumns[..] == PassUpTo(values[..], results, rows0, columns0, row + 1).1
      ensures newLine' == (coveredColumns[..] != columns0)
    {
      ghost var rows1, columns1 := coveredRows[..], coveredColumns[..];
      var drawn;
      ghost var col;
      drawn, col := CoverZero(values, coveredRows, coveredColumns, row);
      PassNext(values[..], results, rows0, columns0, row, rows1, columns1, coveredRows[..], coveredColumns[..]);
      newLine' := newLine;
      if drawn {
        assert coveredColumns[col] != columns0[col];
        newLine' := true;
      }
    }

    /** No zero lies in an uncovered row and an uncovered column. */
    ghost predicate NoOpenZero(m: seq<int>, rowsCovered: seq<bool>, columnsCovered: seq<bool>)
      requires |m| == width * height && |rowsCovered| == height && |columnsCovered| == width
    {
      forall r :: 0 <= r < height ==> RowClosed(m, rowsCovered, columnsCovered, r)
    }

    /**
     * The line drawing of `drawLines`: cover every assigned
     * row, then repeat modified step 2 until a pass draws no new line.  Only
     * assigned rows are ever covered, a covered column's placement has its row
     * uncovered, and at the end no zero is left uncovered; hence every
     * placement is covered exactly once.
     */
    method FindLines(values: array<int>) returns (coveredRows: array<bool>, coveredColumns: array<bool>)
      requires values.Length == width * height
      requires Placed(results) && OnZeros(values, results) && DistinctColumns(results)
      ensures fresh(coveredRows) && fresh(coveredColumns) && coveredRows != coveredColumns
      ensures coveredRows.Length == height && coveredColumns.Length == width
      ensures forall r :: 0 <= r < height && coveredRows[r] ==> exists k :: 0 <= k < |results| && results[k].y == r
      ensures LinesOk(results, coveredRows[..], coveredColumns[..])
      ensures NoOpenZero(values[..], coveredRows[..], coveredColumns[..])
      ensures forall k :: 0 <= k < |results| ==> coveredRows[results[k].y] != coveredColumns[results[k].x]
      ensures (coveredRows[..], coveredColumns[..]) == Lines(values[..], results, AssignedRows(results, height), seq(width, _ => false))
    {
      coveredRows := new bool[height](_ => false);
      coveredColumns := new bool[width](_ => false);
      for k := 0 to |results|
        modifies coveredRows
        invariant forall r :: 0 <= r < height ==> (coveredRows[r] <==> exists k' :: 0 <= k' < k && results[k'].y == r)
      {
        coveredRows[results[k].y] := true;
      }
      ghost var start := (coveredRows[..], coveredColumns[..]);
      StartCovers(coveredRows[..], coveredColumns[..]);
      var newLine := true;
      while newLine
        modifies coveredRows, coveredColumns
        invariant forall r :: 0 <= r < height && coveredRows[r] ==> exists k :: 0 <= k < |results| && results[k].y == r
        invariant LinesOk(results, coveredRows[..], coveredColumns[..])
        invariant !newLine ==> NoOpenZero(values[..], coveredRows[..], coveredColumns[..])
        invariant newLine ==> Lines(values[..], results, coveredRows[..], coveredColumns[..]) == Lines(values[..], results, start.0, start.1)
        invariant !newLine ==> (coveredRows[..], coveredColumns[..]) == Lines(values[..], results, start.0, start.1)
        decreases Unflagged(coveredColumns[..]), newLine
      {
        ghost var before := (coveredRows[..], coveredColumns[..]);
        newLine := DrawPass(values, coveredRows, coveredColumns);
        LinesStep(values[..], results, before.0, before.1);
      }
      forall k | 0 <= k < |results|
        ensures coveredRows[results[k].y] != coveredColumns[results[k].x]
      {
        assert RowClosed(values[..], coveredRows[..], coveredColumns[..], results[k].y);
      }
    }

    /**
     * `drawLines`: draw the lines with `FindLines`, then shift the matrix by
     * `UpdateMatrix`.  Every placement is covered exactly once, so it keeps
     * its zero.
     */
    method DrawLines(values: array<int>) returns (ghost coveredRows: array<bool>, ghost coveredColumns: array<bool>, ghost min: int)
      requires values.Length == width * height && Cells(values)
      requires Placed(results) && OnZeros(values, results) && DistinctColumns(results)
      modifies values
      ensures fresh(coveredRows) && fresh(coveredColumns)
      ensures coveredRows.Length == height && coveredColumns.Length == width
      ensures forall r :: 0 <= r < height && coveredRows[r] ==> exists k :: 0 <= k < |results| && results[k].y == r
      ensures LinesOk(results, coveredRows[..], coveredColumns[..])
      ensures NoOpenZero(old(values[..]), coveredRows[..], coveredColumns[..])
      ensures Shifted(old(values[..]), values[..], coveredRows[..], coveredColumns[..], min)
      ensures Cells(values) && OnZeros(values, results)
      ensures IsCell(min)
      ensures forall r, c :: 0 <= r < height && 0 <= c < width && !coveredRows[r] && !coveredColumns[c] ==> min <= old(values[Idx(r, c)])
      ensures min == CellMax || exists r, c :: 0 <= r < height && 0 <= c < width && !coveredRows[r] && !coveredColumns[c] && old(values[Idx(r, c)]) == min
      ensures (exists r, c :: 0 <= r < height && 0 <= c < width && !coveredRows[r] && !coveredColumns[c]) ==>
        0 < min && exists r, c :: 0 <= r < height && 0 <= c < width && !coveredRows[r] && !coveredColumns[c] && values[Idx(r, c)] == 0
      ensures (coveredRows[..], coveredColumns[..]) == Lines(old(values[..]), results, AssignedRows(results, height), seq(width, _ => false))
    {
      var rows, columns := FindLines(values);
      coveredRows, coveredColumns := rows, columns;
      min := UpdateMatrix(values, rows, columns);
      if min != CellMax {
        var r, c :| 0 <= r < height && 0 <= c < width && !rows[r] && !columns[c] && old(values[Idx(r, c)]) == min;
        assert RowClosed(old(values[..]), rows[..], columns[..], r);
      }
    }

    /** `updateMatrix` moved `before` to `after`: uncovered cells drop by `min`, doubly covered cells rise by it up to the largest cell, the rest stay. */
    ghost predicate Shifted(before: seq<int>, after: seq<int>, rowsCovered: seq<bool>, columnsCovered: seq<bool>, min: int)
      requires |before| == |after| == width * height && |rowsCovered| == height && |columnsCovered| == width
    {
      forall r, c :: 0 <= r < height && 0 <= c < width ==>
        var v, w := before[Idx(r, c)], after[Idx(r, c)];
        && (rowsCovered[r] && columnsCovered[c] ==> w == if v + min > CellMax then CellMax else v + min)
        && (!rowsCovered[r] && !columnsCovered[c] ==> w == v - min)
        && (rowsCovered[r] != columnsCovered[c] ==> w == v)
    }

    /**
     * The first loop of `updateMatrix`: the least cell in an
     * uncovered row and an uncovered column, or the largest cell when there is
     * none.
     */
    method OpenMin(values: array<int>, coveredRows: array<bool>, coveredColumns: array<bool>) returns (min: int)
      requires values.Length == width * height && coveredRows.Length == height && coveredColumns.Length == width
      requires Cells(values)
      ensures IsCell(min)
      ensures forall r, c :: 0 <= r < height && 0 <= c < width && !coveredRows[r] && !coveredColumns[c] ==> min <= values[Idx(r, c)]
      ensures min == CellMax || exists r, c :: 0 <= r < height && 0 <= c < width && !coveredRows[r] && !coveredColumns[c] && values[Idx(r, c)] == min
    {
      min := CellMax;
      ghost var wr, wc := -1, -1;
      for row := 0 to height
        invariant IsCell(min)
        invariant forall r, c :: 0 <= r < row && 0 <= c < width && !coveredRows[r] && !coveredColumns[c] ==> min <= values[Idx(r, c)]
        invariant min == CellMax || (0 <= wr < height && 0 <= wc < width && !coveredRows[wr] && !coveredColumns[wc] && values[Idx(wr, wc)] == min)
      {
        if !coveredRows[row] {
          for column := 0 to width
            invariant IsCell(min)
            invariant forall r, c :: 0 <= r < row && 0 <= c < width && !coveredRows[r] && !coveredColumns[c] ==> min <= values[Idx(r, c)]
            invariant forall c :: 0 <= c < column && !coveredColumns[c] ==> min <= values[Idx(row, c)]
            invariant min == CellMax || (0 <= wr < height && 0 <= wc < width && !coveredRows[wr] && !coveredColumns[wc] && values[Idx(wr, wc)] == min)
          {
            if !coveredColumns[column] && values[Idx(row, column)] < min {
              min := values[Idx(row, column)];
              wr, wc := row, column;
            }
          }
        }
      }
    }

    /** The second loop of `updateMatrix` for one row. */
    method AdjustRow(values: array<int>, coveredRows: array<bool>, coveredColumns: array<bool>, row: int, min: int)
      requires values.Length == width * height && coveredRows.Length == height && coveredColumns.Length == width
      requires Cells(values) && IsCell(min) && 0 <= row < height
      requires !coveredRows[row] ==> forall c :: 0 <= c < width && !coveredColumns[c] ==> min <= values[Idx(row, c)]
      modifies values
      ensures Cells(values)
      ensures forall r, c :: 0 <= r < height && 0 <= c < width ==>
        var v, w := old(values[Idx(r, c)]), values[Idx(r, c)];
        if r != row then w == v
        else
          && (coveredRows[r] && coveredColumns[c] ==> w == if v + min > CellMax then CellMax else v + min)
          && (!coveredRows[r] && !coveredColumns[c] ==> w == v - min)
          && (coveredRows[r] != coveredColumns[c] ==> w == v)
    {
      if coveredRows[row] {
        for column := 0 to width
          invariant Cells(values)
          invariant forall r, c :: 0 <= r < height && 0 <= c < width ==>
            var v, w := old(values[Idx(r, c)]), values[Idx(r, c)];
            if r == row && c < column && coveredColumns[c] then w == (if v + min > CellMax then CellMax else v + min) else w == v
        {
          if coveredColumns[column] {
            values[Idx(row, column)] := SatAdd(values[Idx(row, column)], min);
          }
        }
      } else {
        for column := 0 to width
          invariant Cells(values)
          invariant forall r, c :: 0 <= r < height && 0 <= c < width ==>
            var v, w := old(values[Idx(r, c)]), values[Idx(r, c)];
            if r == row && c < column && !coveredColumns[c] then w == v - min else w == v
        {
          if !coveredColumns[column] {
            values[Idx(row, column)] := values[Idx(row, column)] - min;
          }
        }
      }
    }

    /**
     * `updateMatrix`: subtract the least uncovered cell from every uncovered
     * cell and add it, capped at the largest cell, to every doubly covered
     * cell; cells covered once are unchanged.  No cell leaves the cell range.
     */
    method UpdateMatrix(values: array<int>, coveredRows: array<bool>, coveredColumns: array<bool>) returns (ghost min: int)
      requires values.Length == width * height && coveredRows.Length == height && coveredColumns.Length == width
      requires Cells(values)
      modifies values
      ensures IsCell(min)
      ensures forall r, c :: 0 <= r < height && 0 <= c < width && !coveredRows[r] && !coveredColumns[c] ==> min <= old(values[Idx(r, c)])
      ensures min == CellMax || exists r, c :: 0 <= r < height && 0 <= c < width && !coveredRows[r] && !coveredColumns[c] && old(values[Idx(r, c)]) == min
      ensures Cells(values)
      ensures Shifted(old(values[..]), values[..], coveredRows[..], coveredColumns[..], min)
      ensures (exists r, c :: 0 <= r < height && 0 <= c < width && !coveredRows[r] && !coveredColumns[c]) ==>
        exists r, c :: 0 <= r < height && 0 <= c < width && !coveredRows[r] && !coveredColumns[c] && values[Idx(r, c)] == 0
    {
      var m := OpenMin(values, coveredRows, coveredColumns);
      ghost var open := exists r, c :: 0 <= r < height && 0 <= c < width && !coveredRows[r] && !coveredColumns[c];
      ghost var wr, wc := 0, 0;
      if open {
        if m == CellMax {
          wr, wc :| 0 <= wr < height && 0 <= wc < width && !coveredRows[wr] && !coveredColumns[wc];
        } else {
          wr, wc :| 0 <= wr < height && 0 <= wc < width && !coveredRows[wr] && !coveredColumns[wc] && values[Idx(wr, wc)] == m;
        }
        assert values[Idx(wr, wc)] == m;
      }
      for row := 0 to height
        invariant Cells(values)
        invariant forall r, c :: 0 <= r < height && 0 <= c < width ==>
          var v, w := old(values[Idx(r, c)]), values[Idx(r, c)];
          if r >= row then w == v
          else
            && (coveredRows[r] && coveredColumns[c] ==> w == if v + m > CellMax then CellMax else v + m)
            && (!coveredRows[r] && !coveredColumns[c] ==> w == v - m)
            && (coveredRows[r] != coveredColumns[c] ==> w == v)
      {
        AdjustRow(values, coveredRows, coveredColumns, row, m);
      }
      if open {
        assert values[Idx(wr, wc)] == 0;
      }
      min := m;
    }

    /** Swap the coordinates of every placement (end of `math`). */
    method FlipResults()
      modifies this`results
      ensures |results| == |old(results)|
      ensures forall k :: 0 <= k < |results| ==> results[k] == Placement(old(results[k]).y, old(results[k]).x)
    {
      for k := 0 to |results|
        invariant |results| == |old(results)|
        invariant forall k' :: 0 <= k' < |results| ==>
          results[k'] == if k' < k then Placement(old(results[k']).y, old(results[k']).x) else old(results[k'])
      {
        results := results[k := Placement(results[k].y, results[k].x)];
      }
    }

    /** Every placement lies inside the matrix as the caller gave it. */
    ghost predicate OrigPlaced(R: seq<Placement>)
    {
      forall k :: 0 <= k < |R| ==> 0 <= R[k].x < OrigWidth() && 0 <= R[k].y < OrigHeight()
    }

    /**
     * `math`: reduce rows, and columns when square; assign; flip the
     * placements back when the matrix was transposed.  The placements then
     * use distinct rows and distinct columns of the matrix as given, and
     * there is one per row of the matrix as solved once the assignment loop
     * has finished.
     */
    method Math(values: array<int>, fuel: nat)
      requires values.Length == width * height && Cells(values) && results == [] && width >= height
      modifies this`results, this`finished, values
      ensures OrigPlaced(results) && DistinctRows(results) && DistinctColumns(results)
      ensures finished ==> |results| == height
      ensures height == 0 ==> !finished
    {
      RowReduce(values);
      if width == height {
        ColumnReduce(values);
      }
      finished := GetResults(values, fuel);
      if flipped {
        FlipResults();
      }
    }

    /**
     * The cost of the placements in the matrix as given, wrapping around
     * like the unsigned cell type (`resultCost`, with the stride of the
     * matrix as given).
     */
    method ResultCost(values: seq<int>) returns (cost: int)
      requires |values| == OrigHeight() * OrigWidth() && forall p :: 0 <= p < |values| ==> IsCell(values[p])
      requires OrigPlaced(results)
      ensures IsCell(cost)
      ensures cost == TotalCost(values, results, OrigWidth(), OrigHeight()) % Modulus
    {
      cost := 0;
      for k := 0 to |results|
        invariant IsCell(cost)
        invariant cost == TotalCost(values, results[..k], OrigWidth(), OrigHeight()) % Modulus
      {
        assert results[..k + 1][..k] == results[..k];
        var v := values[RowMajor(results[k].y, results[k].x, OrigHeight(), OrigWidth())];
        WrapSum(TotalCost(values, results[..k], OrigWidth(), OrigHeight()), v);
        cost := AddWrap(cost, v);
      }
      assert results[..|results|] == results;
    }

    /** The APSO built from a w-by-h matrix given row by row, signed or unsigned. */
    constructor (input: seq<int>, w: nat, h: nat, signed: bool, fuel: nat)
      requires |input| == w * h && Inputs(input, signed)
      ensures OrigWidth() == w && OrigHeight() == h && flipped == (w < h)
      ensures OrigPlaced(results) && DistinctRows(results) && DistinctColumns(results)
      ensures finished ==> |results| == if w >= h then h else w
      ensures w == 0 || h == 0 ==> !finished
    {
      width := if w >= h then w else h;
      height := if w >= h then h else w;
      flipped := w < h;
      results := [];
      finished := false;
      new;
      var cells: seq<int>;
      if w >= h {
        cells := ShiftedCopy(input, signed);
      } else {
        cells := TransposeToUnsigned(input, w, h, signed);
      }
      var values := new int[|cells|](k requires 0 <= k < |cells| => cells[k]);
      Math(values, fuel);
    }

    /** The APSO built on the caller's own unsigned vector, which it reduces in place. */
    constructor InPlace(values: array<int>, w: nat, h: nat, fuel: nat)
      requires values.Length == w * h && forall p :: 0 <= p < values.Length ==> IsCell(values[p])
      modifies values
      ensures OrigWidth() == w && OrigHeight() == h && flipped == (w < h)
      ensures OrigPlaced(results) && DistinctRows(results) && DistinctColumns(results)
      ensures finished ==> |results| == if w >= h then h else w
      ensures w == 0 || h == 0 ==> !finished
    {
      width := if w >= h then w else h;
      height := if w >= h then h else w;
      flipped := w < h;
      results := [];
      finished := false;
      new;
      if w < h {
        var cells := TransposeToUnsigned(values[..], w, h, false);
        forall k | 0 <= k < values.Length {
          values[k] := cells[k];
        }
      }
      Math(values, fuel);
    }
  }

  /** A covered column's placement has its row uncovered. */
  ghost predicate LinesOk(R: seq<Placement>, rowsCovered: seq<bool>, columnsCovered: seq<bool>)
  {
    forall k :: 0 <= k < |R| && 0 <= R[k].x < |columnsCovered| && columnsCovered[R[k].x] ==>
      0 <= R[k].y < |rowsCovered| && !rowsCovered[R[k].y]
  }

  /** The index of the first placement in column `c`, or |R| when there is none. */
  ghost function FirstIn(R: seq<Placement>, c: int): (k: int)
    ensures 0 <= k <= |R|
    ensures k < |R| ==> R[k].x == c
    ensures forall k' :: 0 <= k' < k ==> R[k'].x != c
  {
    if R == [] then 0
    else if R[0].x == c then 0
    else 1 + FirstIn(R[1..], c)
  }

  /** Per row of an h-row matrix, whether some placement lies in it. */
  ghost function AssignedRows(R: seq<Placement>, h: nat): (s: seq<bool>)
    ensures |s| == h && forall r :: 0 <= r < h ==> (s[r] <==> exists k :: 0 <= k < |R| && R[k].y == r)
  {
    seq(h, r => exists k :: 0 <= k < |R| && R[k].y == r)
  }

  /** The sum of the placed cells of a w-by-h matrix stored row by row. */
  ghost function TotalCost(values: seq<int>, R: seq<Placement>, w: nat, h: nat): (c: int)
    requires |values| == h * w
    requires forall k :: 0 <= k < |R| ==> 0 <= R[k].x < w && 0 <= R[k].y < h
    ensures (forall p :: 0 <= p < |values| ==> values[p] >= 0) ==> c >= 0
    decreases |R|
  {
    if R == [] then 0
    else
      var p := R[|R| - 1];
      TotalCost(values, R[..|R| - 1], w, h) + values[RowMajor(p.y, p.x, h, w)]
  }

  lemma WrapSum(a: int, v: int)
    requires a >= 0 && IsCell(v)
    ensures AddWrap(a % Modulus, v) == (a + v) % Modulus
  {
  }

  /**
   * The position `resultCost` reads for a placement: the stride is the stored
   * `width`, which is the width of the matrix as solved, not as given.
   */
  function ResultIndexAsWritten(solvedWidth: int, p: Placement): (i: int)
    requires solvedWidth >= 0 && p.x >= 0 && p.y >= 0
    ensures i >= solvedWidth * p.y
  {
    solvedWidth * p.y + p.x
  }

  /**
   * For a w-by-h matrix with w < h, solved transposed with stride h, a
   * placement in the last row is read past the end of the matrix as given,
   * while its cell lies inside it.
   */
  lemma ResultCostStrideAsWritten(w: int, h: int, x: int)
    requires 0 <= x < w < h
    ensures ResultIndexAsWritten(h, Placement(x, h - 1)) >= w * h
    ensures RowMajor(h - 1, x, h, w) < w * h
  {
    MulAtLeast(h - 1 - w + 1, h);
    assert h * (h - 1) >= h * w;
  }
}

=== FILE: bitset.dfy ===
/**
 * The sparse bit set used by the zero search of the Kuhn-Munkres engine.
 *
 * Bits live in 64-bit limbs; the non-zero limbs are threaded into a doubly
 * linked list (`first`, `prev`, `next`) so that "give me any set bit" costs
 * O(1).  The set of members is the ghost field `Elems`, and the order of the
 * threaded limbs is the ghost field `List`.
 */
module BitSets {
  /** Bit `b` of the limb `x` is on. */
  predicate BitAt(x: bv64, b: bv6)
  {
    (x >> b) & 1 == 1
  }

  function Mask(b: bv6): bv64 { 1 << b }

  /** The bit index `i` is bit `b` of limb `j`. */
  function Pos(j: int, b: bv6): int { 64 * j + b as int }

  /** Position of index `i` inside its limb (`i & 63`). */
  function BitOf(i: nat): (b: bv6)
    ensures b as int == i % 64
  {
    (i % 64) as bv6
  }

  lemma PosRange(j: int, b: bv6)
    ensures 64 * j <= Pos(j, b) < 64 * j + 64
  {}

  lemma PosInj(j: int, b: bv6, j': int, c: bv6)
    ensures Pos(j, b) == Pos(j', c) <==> j == j' && b == c
  {}

  lemma Split(i: nat)
    ensures i == Pos(i / 64, BitOf(i))
  {}

  lemma SetBitBv(x: bv64, b: bv6, c: bv6)
    ensures BitAt(x | Mask(b), c) <==> (c == b || BitAt(x, c))
  {}

  lemma ClearBitBv(x: bv64, b: bv6, c: bv6)
    ensures BitAt(x & !Mask(b), c) <==> (c != b && BitAt(x, c))
  {}

  lemma ZeroLimb(x: bv64, b: bv6)
    ensures BitAt(x, b) ==> x != 0
  {}

  lemma IsolateNonzero(x: bv64)
    ensures x != 0 ==> x & -x != 0
  {}

  /** `x & -x` isolates the lowest set bit of `x`. */
  lemma LowestSetBit(x: bv64, b: bv6)
    requires x != 0 && (x & -x) >> b == 1
    ensures BitAt(x, b)
    ensures forall c: bv6 :: c < b ==> !BitAt(x, c)
  {}

  /**
   * Floored binary logarithm by binary search on the bit pattern
   * (`lb`); the result is only meaningful for a non-zero argument.
   */
  method Lb(value: bv64) returns (rc: bv6)
    ensures value != 0 ==> value >> rc == 1
    ensures value == 0 ==> rc == 0
  {
    rc := 0;
    var v := value;
    if v & 0xFFFF_FFFF_0000_0000 != 0 { rc := rc | 32; v := v >> 32; }
    if v & 0x0000_0000_FFFF_0000 != 0 { rc := rc | 16; v := v >> 16; }
    if v & 0x0000_0000_0000_FF00 != 0 { rc := rc | 8; v := v >> 8; }
    if v & 0x0000_0000_0000_00F0 != 0 { rc := rc | 4; v := v >> 4; }
    if v & 0x0000_0000_0000_000C != 0 { rc := rc | 2; v := v >> 2; }
    if v & 0x0000_0000_0000_0002 != 0 { rc := rc | 1; }
  }

  /** Number of limbs needed for `size` bits: `size / 64`, rounded up. */
  function LimbCount(size: nat): (c: nat)
    ensures 64 * c >= size && 64 * (c - 1) < size
  {
    size / 64 + (if size % 64 != 0 then 1 else 0)
  }

  /** The members `E` are exactly the set bits of the limbs `L`. */
  ghost predicate Tracks(E: set<int>, L: seq<bv64>)
  {
    && (forall i :: i in E ==> 0 <= i < 64 * |L|)
    && (forall j, b: bv6 :: 0 <= j < |L| ==> (Pos(j, b) in E <==> BitAt(L[j], b)))
  }

  /**
   * `order` lists exactly the non-zero limbs, without repetition; `first`
   * is its head, and `next`/`prev` link each listed limb to its neighbours
   * (-1 at either end).
   */
  ghost predicate Threads(order: seq<int>, L: seq<bv64>, prev: seq<int>, next: seq<int>, first: int)
  {
    && |L| == |prev| == |next|
    && (forall k :: 0 <= k < |order| ==> 0 <= order[k] < |L|)
    && Distinct(order)
    && (forall j :: 0 <= j < |L| ==> (L[j] != 0 <==> j in order))
    && first == (if order == [] then -1 else order[0])
    && (forall k {:trigger next[order[k]]} :: 0 <= k < |order| ==> next[order[k]] == if k + 1 < |order| then order[k + 1] else -1)
    && (forall k {:trigger prev[order[k]]} :: 0 <= k < |order| ==> prev[order[k]] == if k == 0 then -1 else order[k - 1])
  }

  lemma SetBitAll(x: bv64, b: bv6)
    ensures forall c: bv6 :: BitAt(x | Mask(b), c) <==> (c == b || BitAt(x, c))
  {
    forall c: bv6
      ensures BitAt(x | Mask(b), c) <==> (c == b || BitAt(x, c))
    {
      SetBitBv(x, b, c);
    }
  }

  lemma ClearBitAll(x: bv64, b: bv6)
    ensures forall c: bv6 :: BitAt(x & !Mask(b), c) <==> (c != b && BitAt(x, c))
  {
    forall c: bv6
      ensures BitAt(x & !Mask(b), c) <==> (c != b && BitAt(x, c))
    {
      ClearBitBv(x, b, c);
    }
  }

  /** Turning on bit `b` of limb `j` adds exactly `Pos(j, b)` to the members. */
  lemma TracksAdd(E: set<int>, L: seq<bv64>, L': seq<bv64>, j: int, b: bv6)
    requires Tracks(E, L) && 0 <= j < |L| && |L'| == |L|
    requires forall k :: 0 <= k < |L| && k != j ==> L'[k] == L[k]
    requires forall c: bv6 :: BitAt(L'[j], c) <==> (c == b || BitAt(L[j], c))
    ensures Tracks(E + {Pos(j, b)}, L')
  {
    assert Pos(j, b) < 64 * |L'| by { PosRange(j, b); }
    forall j', c: bv6 | 0 <= j' < |L'|
      ensures Pos(j', c) in E + {Pos(j, b)} <==> BitAt(L'[j'], c)
    {
      assert Pos(j', c) == Pos(j, b) <==> j' == j && c == b by { PosInj(j', c, j, b); }
    }
  }

  /** Turning off bit `b` of limb `j` removes exactly `Pos(j, b)` from the members. */
  lemma TracksRemove(E: set<int>, L: seq<bv64>, L': seq<bv64>, j: int, b: bv6)
    requires Tracks(E, L) && 0 <= j < |L| && |L'| == |L|
    requires forall k :: 0 <= k < |L| && k != j ==> L'[k] == L[k]
    requires forall c: bv6 :: BitAt(L'[j], c) <==> (c != b && BitAt(L[j], c))
    ensures Tracks(E - {Pos(j, b)}, L')
  {
    forall j', c: bv6 | 0 <= j' < |L'|
      ensures Pos(j', c) in E - {Pos(j, b)} <==> BitAt(L'[j'], c)
    {
      assert Pos(j', c) == Pos(j, b) <==> j' == j && c == b by { PosInj(j', c, j, b); }
    }
  }

  /** With every limb zero there are no members. */
  lemma TracksEmpty(E: set<int>, L: seq<bv64>)
    requires Tracks(E, L) && forall j :: 0 <= j < |L| ==> L[j] == 0
    ensures E == {}
  {
    forall i | i in E
      ensures false
    {
      Split(i);
      ZeroLimb(L[i / 64], BitOf(i));
    }
  }

  /** Linking a limb that just became non-zero at the head of the list (the tail of `BitSet_set`). */
  lemma PosMono(j: int, b: bv6, c: bv6)
    requires b <= c
    ensures Pos(j, b) <= Pos(j, c)
  {}

  /** The lowest set bit of a non-zero limb `j` is its smallest member. */
  lemma TracksLowest(E: set<int>, L: seq<bv64>, j: int, x: bv64, rc: bv6)
    requires Tracks(E, L) && 0 <= j < |L| && L[j] == x
    requires x != 0 && (x & -x) >> rc == 1
    ensures var p := rc as int + 64 * j;
            p in E && p / 64 == j && forall q :: q in E && q / 64 == j ==> p <= q
  {
    assert BitAt(x, rc) && forall c: bv6 :: c < rc ==> !BitAt(x, c) by { LowestSetBit(x, rc); }
    var p := rc as int + 64 * j;
    assert p == Pos(j, rc) && p / 64 == j;
    forall q | q in E && q / 64 == j
      ensures p <= q
    {
      Split(q);
      assert BitAt(x, BitOf(q));
      PosMono(j, rc, BitOf(q));
    }
  }

  lemma ThreadsPush(order: seq<int>, L: seq<bv64>, prev: seq<int>, next: seq<int>, first: int, j: int, v: bv64)
    requires Threads(order, L, prev, next, first)
    requires 0 <= j < |L| && L[j] == 0 && v != 0
    ensures var prev1 := if first != -1 then prev[first := j] else prev;
            Threads([j] + order, L[j := v], prev1[j := -1], next[j := first], j)
  {
    var prev1 := if first != -1 then prev[first := j] else prev;
    var order' := [j] + order;
    var prev' := prev1[j := -1];
    var next' := next[j := first];
    assert j !in order;
    forall a, b | 0 <= a < b < |order'|
      ensures order'[a] != order'[b]
    {
      assert order'[b] == order[b - 1];
      if a > 0 {
        assert order'[a] == order[a - 1];
      }
    }
    forall j' | 0 <= j' < |L|
      ensures L[j := v][j'] != 0 <==> j' in order'
    {
      assert j' in order' <==> j' == j || j' in order;
    }
    forall k | 0 <= k < |order'|
      ensures next'[order'[k]] == if k + 1 < |order'| then order'[k + 1] else -1
    {
      if k > 0 {
        assert order'[k] == order[k - 1];
      }
    }
    forall k | 0 <= k < |order'|
      ensures prev'[order'[k]] == if k == 0 then -1 else order'[k - 1]
    {
      if k > 1 {
        assert order'[k] == order[k - 1] && order[k - 1] != order[0];
      }
    }
  }

  /** A list without its entry at position `t`. */
  function Without(order: seq<int>, t: int): (r: seq<int>)
    requires 0 <= t < |order|
    ensures |r| == |order| - 1
    ensures forall k :: 0 <= k < t ==> r[k] == order[k]
    ensures forall k :: t <= k < |r| ==> r[k] == order[k + 1]
  {
    order[..t] + order[t + 1..]
  }

  ghost predicate Distinct(order: seq<int>)
  {
    forall a, b :: 0 <= a < b < |order| ==> order[a] != order[b]
  }

  lemma WithoutMembers(order: seq<int>, t: int)
    requires 0 <= t < |order| && Distinct(order)
    ensures Distinct(Without(order, t))
    ensures forall x :: x in Without(order, t) <==> x in order && x != order[t]
  {
    var order' := Without(order, t);
    forall x
      ensures x in order' <==> x in order && x != order[t]
    {
      if x in order' {
        var k :| 0 <= k < |order'| && order'[k] == x;
        if k < t { assert order[k] == x; } else { assert order[k + 1] == x; }
      }
      if x != order[t] && x in order {
        var k :| 0 <= k < |order| && order[k] == x;
        if k < t { assert order'[k] == x; } else { assert order'[k - 1] == x; }
      }
    }
    forall a, b | 0 <= a < b < |order'|
      ensures order'[a] != order'[b]
    {
      var a' := if a < t then a else a + 1;
      var b' := if b < t then b else b + 1;
      assert order'[a] == order[a'] && order'[b] == order[b'];
    }
  }

  lemma WithoutNext(order: seq<int>, next: seq<int>, t: int, next1: seq<int>)
    requires 0 <= t < |order| && Distinct(order)
    requires forall k :: 0 <= k < |order| ==> 0 <= order[k] < |next|
    requires forall k {:trigger next[order[k]]} :: 0 <= k < |order| ==> next[order[k]] == if k + 1 < |order| then order[k + 1] else -1
    requires next1 == if t == 0 then next else next[order[t - 1] := next[order[t]]]
    ensures var order' := Without(order, t);
            forall k {:trigger next1[order'[k]]} :: 0 <= k < |order'| ==> next1[order'[k]] == if k + 1 < |order'| then order'[k + 1] else -1
  {
    var order' := Without(order, t);
    forall k | 0 <= k < |order'|
      ensures next1[order'[k]] == if k + 1 < |order'| then order'[k + 1] else -1
    {
      if k + 1 < t {
        assert order[k] != order[t - 1];
      } else if k + 1 == t {
      } else {
        if t > 0 {
          assert order[k + 1] != order[t - 1];
        }
      }
    }
  }

  lemma WithoutPrev(order: seq<int>, prev: seq<int>, t: int, prev1: seq<int>)
    requires 0 <= t < |order| && Distinct(order)
    requires forall k :: 0 <= k < |order| ==> 0 <= order[k] < |prev|
    requires forall k {:trigger prev[order[k]]} :: 0 <= k < |order| ==> prev[order[k]] == if k == 0 then -1 else order[k - 1]
    requires prev1 == if t + 1 < |order| then prev[order[t + 1] := prev[order[t]]] else prev
    ensures var order' := Without(order, t);
            forall k {:trigger prev1[order'[k]]} :: 0 <= k < |order'| ==> prev1[order'[k]] == if k == 0 then -1 else order'[k - 1]
  {
    var order' := Without(order, t);
    forall k | 0 <= k < |order'|
      ensures prev1[order'[k]] == if k == 0 then -1 else order'[k - 1]
    {
      if k < t {
        if t + 1 < |order| {
          assert order[k] != order[t + 1];
        }
      } else if k > t {
        assert order[k + 1] != order[t + 1];
      }
    }
  }

  /** The neighbours of the limb at position `t` are the adjacent list entries, or -1 at either end. */
  lemma ThreadsNeighbours(order: seq<int>, L: seq<bv64>, prev: seq<int>, next: seq<int>, first: int, t: int)
    requires Threads(order, L, prev, next, first)
    requires 0 <= t < |order|
    ensures prev[order[t]] == (if t == 0 then -1 else order[t - 1])
    ensures next[order[t]] == (if t + 1 < |order| then order[t + 1] else -1)
  {}

  /**
   * Unlinking the limb at position `t` of the list once it has become zero
   * (the tail of `BitSet_unset`): its successor gets its predecessor and
   * vice versa, and the head moves on when it was the head.
   */
  lemma ThreadsUnlink(order: seq<int>, L: seq<bv64>, prev: seq<int>, next: seq<int>, first: int, t: int,
                      prev1: seq<int>, next1: seq<int>, first1: int)
    requires Threads(order, L, prev, next, first)
    requires 0 <= t < |order|
    requires prev1 == if t + 1 < |order| then prev[order[t + 1] := prev[order[t]]] else prev
    requires next1 == if t == 0 then next else next[order[t - 1] := next[order[t]]]
    requires first1 == if t == 0 then next[order[t]] else first
    ensures Threads(Without(order, t), L[order[t] := 0], prev1, next1, first1)
  {
    var j := order[t];
    var order' := Without(order, t);
    WithoutMembers(order, t);
    WithoutNext(order, next, t, next1);
    WithoutPrev(order, prev, t, prev1);
    assert first1 == if order' == [] then -1 else order'[0];
    assert forall k :: 0 <= k < |order'| ==> 0 <= order'[k] < |L|;
    assert forall j' :: 0 <= j' < |L| ==> (L[j := 0][j'] != 0 <==> j' in order');
  }

  /** Changing a limb between two non-zero values leaves the threading intact. */
  lemma ThreadsRelimb(order: seq<int>, L: seq<bv64>, prev: seq<int>, next: seq<int>, first: int, j: int, v: bv64)
    requires Threads(order, L, prev, next, first)
    requires 0 <= j < |L| && L[j] != 0 && v != 0
    ensures Threads(order, L[j := v], prev, next, first)
  {}

  class BitSet {
    const limbs: array<bv64>
    const prev: array<int>
    const next: array<int>
    var first: int
    ghost const size: nat
    ghost var Elems: set<int>
    ghost var List: seq<int>

    ghost predicate Valid()
      reads this, limbs, prev, next
    {
      && limbs.Length == LimbCount(size)
      && prev != next && limbs as object != prev && limbs as object != next
      && (forall i :: i in Elems ==> 0 <= i < size)
      && Tracks(Elems, limbs[..])
      && Threads(List, limbs[..], prev[..], next[..], first)
    }

    /** A fresh, empty set able to hold indices `0 .. size-1` (`BitSet_init`). */
    constructor (size: nat)
      ensures Valid() && fresh(limbs) && fresh(prev) && fresh(next)
      ensures this.size == size && Elems == {}
    {
      var c := size / 64;
      if size % 64 != 0 {
        c := c + 1;
      }
      limbs := new bv64[c](_ => 0);
      prev := new int[c](_ => 0);
      next := new int[c](_ => 0);
      first := -1;
      this.size := size;
      Elems := {};
      List := [];
      new;
      forall j, b: bv6 | 0 <= j < limbs.Length
        ensures !BitAt(limbs[j], b)
      {
        ZeroLimb(limbs[j], b);
      }
    }

    /** Turn bit `i` on (`BitSet_set`). */
    method Set(i: nat)
      requires Valid() && i < size
      modifies this, limbs, prev, next
      ensures Valid()
      ensures Elems == old(Elems) + {i}
    {
      var j := i / 64;
      var b := BitOf(i);
      Split(i);
      var old_ := limbs[j];
      var v := old_ | Mask(b);
      SetBitAll(old_, b);
      assert v != 0 by { ZeroLimb(v, b); }
      limbs[j] := v;
      TracksAdd(Elems, old(limbs[..]), limbs[..], j, b);
      if old_ == 0 {
        Link(j, old(limbs[..]));
      } else {
        ThreadsRelimb(List, old(limbs[..]), prev[..], next[..], first, j, v);
      }
      Elems := Elems + {i};
    }

    /** Turn bit `i` off (`BitSet_unset`); a limb that becomes zero is unlinked. */
    method Unset(i: nat)
      requires Valid() && i < size
      modifies this, limbs, prev, next
      ensures Valid()
      ensures Elems == old(Elems) - {i}
    {
      var j := i / 64;
      var b := BitOf(i);
      Split(i);
      var old_ := limbs[j];
      if old_ == 0 {
        assert !BitAt(old_, b) by { ZeroLimb(old_, b); }
        return;
      }
      var v := old_ & !Mask(b);
      ClearBitAll(old_, b);
      limbs[j] := v;
      ghost var L1 := limbs[..];
      TracksRemove(Elems, old(limbs[..]), L1, j, b);
      if v == 0 {
        Unlink(j, old(limbs[..]));
      } else {
        ThreadsRelimb(List, old(limbs[..]), prev[..], next[..], first, j, v);
      }
      assert limbs[..] == L1;
      Elems := Elems - {i};
    }

    /** Put limb `j`, which has just become non-zero, at the head of the list of non-zero limbs. */
    method Link(j: int, ghost L0: seq<bv64>)
      requires prev != next && limbs as object != prev && limbs as object != next
      requires Threads(List, L0, prev[..], next[..], first)
      requires 0 <= j < |L0| == limbs.Length && L0[j] == 0 && limbs[j] != 0 && limbs[..] == L0[j := limbs[j]]
      modifies this`first, this`List, prev, next
      ensures Threads(List, limbs[..], prev[..], next[..], first)
      ensures List == [j] + old(List)
    {
      ThreadsPush(List, L0, prev[..], next[..], first, j, limbs[j]);
      if first != -1 {
        prev[first] := j;
      }
      prev[j] := -1;
      next[j] := first;
      first := j;
      List := [j] + List;
    }

    /** Remove limb `j`, which has just become zero, from the list of non-zero limbs. */
    method Unlink(j: int, ghost L0: seq<bv64>)
      requires prev != next && limbs as object != prev && limbs as object != next
      requires Threads(List, L0, prev[..], next[..], first)
      requires 0 <= j < |L0| && L0[j] != 0 && limbs[..] == L0[j := 0]
      modifies this`first, this`List, prev, next
      ensures Threads(List, limbs[..], prev[..], next[..], first)
      ensures j !in List && forall x :: x in List <==> x in old(List) && x != j
    {
      ghost var t :| 0 <= t < |List| && List[t] == j;
      ghost var P0, N0 := prev[..], next[..];
      ThreadsNeighbours(List, L0, P0, N0, first, t);
      WithoutMembers(List, t);
      var p := prev[j];
      var n := next[j];
      if n != -1 {
        prev[n] := p;
      }
      if p == -1 {
        first := n;
      } else {
        next[p] := n;
      }
      ThreadsUnlink(List, L0, P0, N0, old(first), t, prev[..], next[..], first);
      List := Without(List, t);
    }

    /**
     * Some member, or -1 for the empty set (`BitSet_any`): the lowest set
     * bit of the limb at the head of the list.
     */
    method Any() returns (p: int)
      requires Valid()
      ensures p == -1 <==> Elems == {}
      ensures p != -1 ==> p in Elems && p / 64 == first
      ensures p != -1 ==> forall q :: q in Elems && q / 64 == first ==> p <= q
    {
      var i := first;
      if i == -1 {
        assert forall j :: 0 <= j < limbs.Length ==> limbs[j] == 0;
        TracksEmpty(Elems, limbs[..]);
        return -1;
      }
      assert limbs[i] != 0 by { assert List[0] == i; }
      var x := limbs[i];
      var rc := Lb(x & -x);
      IsolateNonzero(x);
      p := rc as int + 64 * i;
      TracksLowest(Elems, limbs[..], i, x, rc);
    }
  }
}

=== FILE: common.dfy ===
/** Definitions shared by the two assignment solvers. */
module Common {
  datatype Option<T> = None | Some(value: T)

  /** Cells are unsigned 64-bit integers: `size_t` in the Kuhn-Munkres engine, `uint64_t` in APSO. */
  const CellMax: int := 0xFFFF_FFFF_FFFF_FFFF
  const Modulus: int := CellMax + 1

  predicate IsCell(x: int) { 0 <= x <= CellMax }

  /** Unsigned 64-bit addition, which wraps around. */
  function AddWrap(x: int, y: int): (r: int)
    requires IsCell(x) && IsCell(y)
    ensures IsCell(r)
    ensures x + y <= CellMax ==> r == x + y
    ensures x + y > CellMax ==> r == x + y - Modulus
  {
    (x + y) % Modulus
  }

  /**
   * Minimum of a non-empty sequence, folded from the left as the row scans
   * of both solvers do it (keep the old minimum on ties).
   */
  function MinOf(s: seq<int>): (r: int)
    requires |s| > 0
    ensures r in s
    ensures forall k :: 0 <= k < |s| ==> r <= s[k]
  {
    if |s| == 1 then s[0]
    else
      var r' := MinOf(s[..|s| - 1]);
      if r' > s[|s| - 1] then s[|s| - 1] else r'
  }

  /** One more step of the left fold of `MinOf`. */
  lemma MinOfStep(s: seq<int>, j: int)
    requires 1 <= j < |s|
    ensures MinOf(s[..j + 1]) == if MinOf(s[..j]) > s[j] then s[j] else MinOf(s[..j])
  {
    assert s[..j + 1][..j] == s[..j];
  }

  lemma MulAtLeast(a: int, m: int)
    requires a >= 1 && m > 0
    ensures a * m >= m
  {}

  /** Row-major index `i * m + j` of cell (i, j) in an n-by-m matrix, and back. */
  lemma IdxRange(i: int, j: int, n: int, m: int)
    requires 0 <= i < n && 0 <= j < m
    ensures 0 <= i * m + j < n * m
  {
    assert i * m <= (n - 1) * m;
  }

  lemma IdxInv(i: int, j: int, m: int)
    requires 0 <= i && 0 <= j < m
    ensures (i * m + j) / m == i && (i * m + j) % m == j
  {
    var p := i * m + j;
    var q, r := p / m, p % m;
    assert q * m + r == p;
    assert (q - i) * m == j - r;
    if q > i {
      MulAtLeast(q - i, m);
    } else if q < i {
      MulAtLeast(i - q, m);
    }
  }

  /** Position of cell (i, j) of an n-by-m matrix stored row by row. */
  function RowMajor(i: int, j: int, n: int, m: int): (p: int)
    requires 0 <= i < n && 0 <= j < m
    ensures 0 <= p < n * m && p / m == i && p % m == j
  {
    IdxRange(i, j, n, m);
    IdxInv(i, j, m);
    i * m + j
  }

  lemma CellOfIdx(p: int, n: int, m: int)
    requires 0 <= p < n * m && m > 0
    ensures 0 <= p / m < n && 0 <= p % m < m && p == (p / m) * m + p % m
  {}
}

=== FILE: fixtures.dfy ===
/**
 * The three square cost tables of `specificTests` and their optimal costs.
 *
 * An assignment of an n-row table gives each row a column; no column is
 * used twice.  Its cost is the sum of the chosen cells.
 */
module Fixtures {
  const Table2: seq<seq<int>> := [
    [0, 0],
    [0, 0]
  ]

  const Table4: seq<seq<int>> := [
    [0, 0, 0, 0],
    [0, 0, 0, 0],
    [0, 0, 0, 0],
    [0, 0, 0, 1]
  ]

  const Table5: seq<seq<int>> := [
    [0, 0, 0, 0, 0],
    [0, 0, 0, 0, 0],
    [0, 0, 1, 1, 1],
    [0, 0, 1, 1, 1],
    [0, 0, 1, 1, 1]
  ]

  /** `t` is an n-by-n table of non-negative cells. */
  ghost predicate Square(t: seq<seq<int>>, n: nat)
  {
    |t| == n && forall i :: 0 <= i < n ==> |t[i]| == n && forall j :: 0 <= j < n ==> t[i][j] >= 0
  }

  /** `cols[i]` is the column of row i; no column is used twice. */
  ghost predicate IsAssignment(n: nat, cols: seq<int>)
  {
    && |cols| == n
    && (forall i :: 0 <= i < n ==> 0 <= cols[i] < n)
    && (forall i, k :: 0 <= i < k < n ==> cols[i] != cols[k])
  }

  /** The cost of the first |cols| rows of `t` under `cols`. */
  ghost function Cost(t: seq<seq<int>>, cols: seq<int>): (r: int)
    requires |cols| <= |t|
    requires forall i :: 0 <= i < |cols| ==> 0 <= cols[i] < |t[i]|
    ensures (forall i :: 0 <= i < |cols| ==> t[i][cols[i]] >= 0) ==> r >= 0
    ensures (forall i :: 0 <= i < |cols| ==> t[i][cols[i]] == 0) ==> r == 0
    decreases |cols|
  {
    if cols == [] then 0
    else t[|cols| - 1][cols[|cols| - 1]] + Cost(t, cols[..|cols| - 1])
  }

  /** With non-negative cells, the cost is at least any one chosen cell. */
  lemma {:induction false} CostAtLeastCell(t: seq<seq<int>>, cols: seq<int>, i: int)
    requires |cols| <= |t|
    requires forall k :: 0 <= k < |cols| ==> 0 <= cols[k] < |t[k]| && t[k][cols[k]] >= 0
    requires 0 <= i < |cols|
    ensures Cost(t, cols) >= t[i][cols[i]]
    decreases |cols|
  {
    var last := |cols| - 1;
    var front := cols[..last];
    assert forall k :: 0 <= k < |front| ==> front[k] == cols[k];
    if i < last {
      CostAtLeastCell(t, front, i);
    }
  }

  /** The identity is a zero-cost assignment of the 2-by-2 fixture. */
  lemma Table2Optimum()
    ensures Square(Table2, 2) && IsAssignment(2, [0, 1]) && Cost(Table2, [0, 1]) == 0
  {
  }

  /** The 4-by-4 fixture has a zero-cost assignment: rows 2 and 3 swap columns to avoid its single 1. */
  lemma Table4Optimum()
    ensures Square(Table4, 4) && IsAssignment(4, [0, 1, 3, 2]) && Cost(Table4, [0, 1, 3, 2]) == 0
  {
  }

  /** Among rows 2-4 of the 5-by-5 fixture, some row must take a column other than 0 and 1. */
  lemma PigeonRows(cols: seq<int>) returns (i: int)
    requires IsAssignment(5, cols)
    ensures 2 <= i <= 4 && cols[i] >= 2
  {
    if cols[2] >= 2 {
      i := 2;
    } else if cols[3] >= 2 {
      i := 3;
    } else {
      assert cols[2] != cols[3] && cols[2] != cols[4] && cols[3] != cols[4];
      i := 4;
    }
  }

  /** Cost 1 is reached on the 5-by-5 fixture. */
  lemma Table5Witness()
    ensures Square(Table5, 5) && IsAssignment(5, [2, 3, 0, 1, 4]) && Cost(Table5, [2, 3, 0, 1, 4]) == 1
  {
  }

  /** Every assignment of the 5-by-5 fixture costs at least 1, so its optimum is 1, not 0. */
  lemma Table5LowerBound(cols: seq<int>)
    requires IsAssignment(5, cols)
    ensures Cost(Table5, cols) >= 1
  {
    assert Square(Table5, 5);
    var i := PigeonRows(cols);
    assert Table5[i][cols[i]] == 1;
    CostAtLeastCell(Table5, cols, i);
  }
}

=== FILE: kuhn.dfy ===
/**
 * The O(n^3) Kuhn-Munkres (Hungarian) engine: `kuhn_match` and its steps.
 *
 * The state of one run is the `kuhn_data` record: the cost table (reduced in
 * place), the mark matrix (stars and primes), the row/column cover vectors
 * and the two snapshots used when flipping an alternating chain.
 */
module Kuhn {
  import opened Common
  import opened BitSets

  datatype Mark = Unmarked | Marked | Prime

  class KuhnData {
    const n: nat
    const m: nat
    const table: array2<int>
    const marks: array2<Mark>
    const rowPrimes: array<int>
    const colMarks: array<int>
    const rowCovered: array<bool>
    const colCovered: array<bool>

    /** Shapes agree and the arrays are pairwise distinct objects. */
    ghost predicate Valid()
    {
      && table.Length0 == n && table.Length1 == m
      && marks.Length0 == n && marks.Length1 == m
      && rowPrimes.Length == n && colMarks.Length == m
      && rowCovered.Length == n && colCovered.Length == m
      && rowPrimes != colMarks && rowCovered != colCovered
      && table as object != marks
      && rowPrimes as object != rowCovered && rowPrimes as object != colCovered
      && colMarks as object != rowCovered && colMarks as object != colCovered
    }

    ghost predicate CellsBounded()
      reads table
      requires Valid()
    {
      forall i, j :: 0 <= i < n && 0 <= j < m ==> IsCell(table[i, j])
    }

    ghost predicate RowHasStar(i: int)
      reads marks
      requires Valid() && 0 <= i < n
    {
      exists j :: 0 <= j < m && marks[i, j] == Marked
    }

    ghost predicate ColHasStar(j: int)
      reads marks
      requires Valid() && 0 <= j < m
    {
      exists i :: 0 <= i < n && marks[i, j] == Marked
    }

    ghost predicate RowHasPrime(i: int)
      reads marks
      requires Valid() && 0 <= i < n
    {
      exists j :: 0 <= j < m && marks[i, j] == Prime
    }

    /** At most one star in every row and in every column. */
    ghost predicate StarsUnique()
      reads marks
      requires Valid()
    {
      && (forall i, j1, j2 :: 0 <= i < n && 0 <= j1 < m && 0 <= j2 < m && marks[i, j1] == Marked && marks[i, j2] == Marked ==> j1 == j2)
      && (forall i1, i2, j :: 0 <= i1 < n && 0 <= i2 < n && 0 <= j < m && marks[i1, j] == Marked && marks[i2, j] == Marked ==> i1 == i2)
    }

    /** Stars and primes sit on zero cells. */
    ghost predicate MarksOnZeros()
      reads marks, table
      requires Valid()
    {
      forall i, j :: 0 <= i < n && 0 <= j < m && marks[i, j] != Unmarked ==> table[i, j] == 0
    }

    ghost predicate RowHasZero(i: int)
      reads table
      requires Valid() && 0 <= i < n
    {
      exists j :: 0 <= j < m && table[i, j] == 0
    }

    ghost predicate NoPrimes()
      reads marks
      requires Valid()
    {
      forall i, j :: 0 <= i < n && 0 <= j < m ==> marks[i, j] != Prime
    }

    /** Every prime lies in an uncovered column. */
    ghost predicate PrimesUncovered()
      reads marks, colCovered
      requires Valid()
    {
      forall i, j :: 0 <= i < n && 0 <= j < m && marks[i, j] == Prime ==> !colCovered[j]
    }

    /** A star in an uncovered column has a prime in its row. */
    ghost predicate StarsPrimed()
      reads marks, colCovered
      requires Valid()
    {
      forall i, j :: 0 <= i < n && 0 <= j < m && marks[i, j] == Marked && !colCovered[j] ==> RowHasPrime(i)
    }

    /** The star of a covered row lies in an uncovered column. */
    ghost predicate RowCoverOk()
      reads marks, rowCovered, colCovered
      requires Valid()
    {
      forall i, j :: 0 <= i < n && 0 <= j < m && rowCovered[i] && marks[i, j] == Marked ==> !colCovered[j]
    }

    /** No zero lies in an uncovered row and an uncovered column. */
    ghost predicate NoUncoveredZero()
      reads table, rowCovered, colCovered
      requires Valid()
    {
      forall i, j :: 0 <= i < n && 0 <= j < m && !rowCovered[i] && !colCovered[j] ==> table[i, j] != 0
    }

    ghost function CoveredCols(): set<int>
      reads colCovered
      requires Valid()
    {
      set j | 0 <= j < m && colCovered[j]
    }

    /** A fresh run over `table`, which is reduced in place (`kuhn_match`). */
    constructor (table: array2<int>)
      ensures Valid() && this.table == table && n == table.Length0 && m == table.Length1
      ensures fresh(marks) && fresh(rowPrimes) && fresh(colMarks) && fresh(rowCovered) && fresh(colCovered)
      ensures forall i, j :: 0 <= i < n && 0 <= j < m ==> marks[i, j] == Unmarked
      ensures forall i :: 0 <= i < n ==> !rowCovered[i]
      ensures forall j :: 0 <= j < m ==> !colCovered[j]
    {
      n := table.Length0;
      m := table.Length1;
      this.table := table;
      rowPrimes := new int[table.Length0](_ => -1);
      colMarks := new int[table.Length1](_ => -1);
      rowCovered := new bool[table.Length0](_ => false);
      colCovered := new bool[table.Length1](_ => false);
      marks := new Mark[table.Length0, table.Length1]((_, _) => Unmarked);
    }

    /** The cells of row `i`, in column order. */
    ghost function RowOf(i: int): (row: seq<int>)
      reads table
      requires Valid() && 0 <= i < n
      ensures |row| == m && forall j :: 0 <= j < m ==> row[j] == table[i, j]
    {
      seq(m, j requires 0 <= j < m reads table => table[i, j])
    }

    /** The minimum of row `i`, scanned from column 0 (`kuhn_reduceRows`). */
    method RowMinimum(i: int) returns (min: int)
      requires Valid() && 0 <= i < n && m > 0
      ensures min == MinOf(RowOf(i))
    {
      ghost var row := RowOf(i);
      min := table[i, 0];
      var j := 1;
      while j < m
        invariant 1 <= j <= m
        invariant min == MinOf(row[..j])
      {
        MinOfStep(row, j);
        if min > table[i, j] {
          min := table[i, j];
        }
        j := j + 1;
      }
      assert row[..m] == row;
    }

    /** Subtract `min` from every cell of row `i` (`kuhn_reduceRows`). */
    method SubtractFromRow(i: int, min: int)
      requires Valid() && 0 <= i < n
      modifies table
      ensures forall j :: 0 <= j < m ==> table[i, j] == old(table[i, j]) - min
      ensures forall i', j :: 0 <= i' < n && i' != i && 0 <= j < m ==> table[i', j] == old(table[i', j])
    {
      var j := 0;
      while j < m
        invariant 0 <= j <= m
        invariant forall j' :: 0 <= j' < j ==> table[i, j'] == old(table[i, j']) - min
        invariant forall j' :: j <= j' < m ==> table[i, j'] == old(table[i, j'])
        invariant forall i', j' :: 0 <= i' < n && i' != i && 0 <= j' < m ==> table[i', j'] == old(table[i', j'])
      {
        table[i, j] := table[i, j] - min;
        j := j + 1;
      }
    }

    /** Subtract from every row its minimum (`kuhn_reduceRows`). */
    method ReduceRows()
      requires Valid() && CellsBounded() && (n > 0 ==> m > 0)
      modifies table
      ensures CellsBounded()
      ensures forall i, j :: 0 <= i < n && 0 <= j < m ==> table[i, j] == old(table[i, j]) - MinOf(old(RowOf(i)))
      ensures forall i :: 0 <= i < n ==> RowHasZero(i)
    {
      var i := 0;
      while i < n
        invariant 0 <= i <= n
        invariant forall i', j :: 0 <= i' < i && 0 <= j < m ==> table[i', j] == old(table[i', j]) - MinOf(old(RowOf(i')))
        invariant forall i', j :: i <= i' < n && 0 <= j < m ==> table[i', j] == old(table[i', j])
        invariant forall i', j :: 0 <= i' < n && 0 <= j < m ==> IsCell(table[i', j])
      {
        assert RowOf(i) == old(RowOf(i));
        var min := RowMinimum(i);
        ghost var z :| 0 <= z < m && RowOf(i)[z] == min;
        SubtractFromRow(i, min);
        i := i + 1;
      }
      forall i | 0 <= i < n
        ensures RowHasZero(i)
      {
        ghost var row := old(RowOf(i));
        ghost var z :| 0 <= z < m && row[z] == MinOf(row);
        assert table[i, z] == 0;
      }
    }

    /**
     * The inner scan of `kuhn_markZeroes` for row `i`: star the
     * first zero of the row whose column is uncovered, cover that column and
     * return it; return `m` when there is none.
     */
    method StarFirstZero(i: int) returns (j: int)
      requires Valid() && 0 <= i < n
      modifies marks, colCovered
      ensures 0 <= j <= m
      ensures forall j' :: 0 <= j' < j ==> old(colCovered[j']) || table[i, j'] != 0
      ensures j < m ==> !old(colCovered[j]) && table[i, j] == 0
      ensures forall i', j' :: 0 <= i' < n && 0 <= j' < m ==> marks[i', j'] == if i' == i && j' == j then Marked else old(marks[i', j'])
      ensures forall j' :: 0 <= j' < m ==> colCovered[j'] == (j' == j || old(colCovered[j']))
    {
      j := 0;
      while j < m
        invariant 0 <= j <= m
        invariant forall j' :: 0 <= j' < j ==> colCovered[j'] || table[i, j'] != 0
        invariant unchanged(marks) && unchanged(colCovered)
      {
        if !colCovered[j] && table[i, j] == 0 {
          marks[i, j] := Marked;
          colCovered[j] := true;
          return;
        }
        j := j + 1;
      }
    }

    /**
     * Greedy initial starring (`kuhn_markZeroes`): each row stars its first
     * zero in a column not yet covered.  The result counts the stars, which
     * are one per row and per column and are exactly the covered columns;
     * no zero is left in an unstarred row and an uncovered column.
     */
    method MarkZeroes() returns (count: int)
      requires Valid()
      requires forall i, j :: 0 <= i < n && 0 <= j < m ==> marks[i, j] == Unmarked
      requires forall j :: 0 <= j < m ==> !colCovered[j]
      modifies marks, colCovered
      ensures StarsUnique() && MarksOnZeros() && NoPrimes()
      ensures forall j :: 0 <= j < m ==> (colCovered[j] <==> ColHasStar(j))
      ensures count == |CoveredCols()| && count <= n
      ensures count == n <==> forall i :: 0 <= i < n ==> RowHasStar(i)
      ensures forall i, j :: 0 <= i < n && 0 <= j < m && table[i, j] == 0 ==> RowHasStar(i) || colCovered[j]
    {
      ghost var starCol: seq<int> := seq(n, _ => -1);
      ghost var starRow: seq<int> := seq(m, _ => -1);
      count := 0;
      assert CoveredCols() == {};
      var i := 0;
      while i < n
        invariant 0 <= i <= n
        invariant MarkInv(i, count, starCol, starRow)
      {
        count, starCol, starRow := MarkRow(i, count, starCol, starRow);
        i := i + 1;
      }
      StarRecords(starCol, starRow);
    }

    /**
     * The loop invariant of `kuhn_markZeroes` after `i` rows:
     * `starCol[i]` is the star column of row `i` or -1, `starRow[j]` the star
     * row of column `j` or -1.
     */
    ghost predicate MarkInv(i: int, count: int, starCol: seq<int>, starRow: seq<int>)
      reads table, marks, colCovered
      requires Valid() && 0 <= i <= n
    {
      && |starCol| == n && |starRow| == m
      && (forall i', j :: 0 <= i' < n && 0 <= j < m ==> marks[i', j] == if starCol[i'] == j then Marked else Unmarked)
      && (forall i' :: 0 <= i' < n && starCol[i'] != -1 ==> i' < i && 0 <= starCol[i'] < m && starRow[starCol[i']] == i' && table[i', starCol[i']] == 0)
      && (forall j :: 0 <= j < m ==> (colCovered[j] <==> starRow[j] != -1))
      && (forall j :: 0 <= j < m && starRow[j] != -1 ==> 0 <= starRow[j] < n && starCol[starRow[j]] == j)
      && count == |CoveredCols()|
      && count <= i
      && (count == i <==> forall i' :: 0 <= i' < i ==> starCol[i'] != -1)
      && (forall i', j :: 0 <= i' < i && 0 <= j < m && table[i', j] == 0 ==> starCol[i'] != -1 || colCovered[j])
    }

    /** One row of `kuhn_markZeroes`: the inner scan and the count. */
    method MarkRow(i: int, count: int, ghost starCol: seq<int>, ghost starRow: seq<int>)
      returns (count': int, ghost starCol': seq<int>, ghost starRow': seq<int>)
      requires Valid() && 0 <= i < n && MarkInv(i, count, starCol, starRow)
      modifies marks, colCovered
      ensures MarkInv(i + 1, count', starCol', starRow')
    {
      ghost var before := CoveredCols();
      var j := StarFirstZero(i);
      if j < m {
        starCol' := starCol[i := j];
        starRow' := starRow[j := i];
        assert forall i' :: 0 <= i' < i ==> starCol'[i'] == starCol[i'];
        assert CoveredCols() == before + {j};
        count' := count + 1;
      } else {
        starCol', starRow' := starCol, starRow;
        assert CoveredCols() == before;
        assert starCol[i] == -1;
        count' := count;
      }
    }

    /**
     * Star records: `starCol[i]` is the star column of row `i` (or -1) and
     * `starRow[j]` the star row of column `j` (or -1), and the covered
     * columns are the starred ones. Then the stars are unique and on zeros.
     */
    lemma StarRecords(starCol: seq<int>, starRow: seq<int>)
      requires Valid() && |starCol| == n && |starRow| == m
      requires forall i, j :: 0 <= i < n && 0 <= j < m ==> marks[i, j] == if starCol[i] == j then Marked else Unmarked
      requires forall i :: 0 <= i < n && starCol[i] != -1 ==> 0 <= starCol[i] < m && starRow[starCol[i]] == i && table[i, starCol[i]] == 0
      requires forall j :: 0 <= j < m ==> (colCovered[j] <==> starRow[j] != -1)
      requires forall j :: 0 <= j < m && starRow[j] != -1 ==> 0 <= starRow[j] < n && starCol[starRow[j]] == j
      ensures StarsUnique() && MarksOnZeros() && NoPrimes()
      ensures forall i :: 0 <= i < n ==> (RowHasStar(i) <==> starCol[i] != -1)
      ensures forall j :: 0 <= j < m ==> (colCovered[j] <==> ColHasStar(j))
    {
      forall i | 0 <= i < n
        ensures RowHasStar(i) <==> starCol[i] != -1
      {
        if starCol[i] != -1 {
          assert marks[i, starCol[i]] == Marked;
        }
      }
      forall j | 0 <= j < m
        ensures colCovered[j] <==> ColHasStar(j)
      {
        if colCovered[j] {
          assert marks[starRow[j], j] == Marked;
        }
      }
    }

    /**
     * The inner scan of `kuhn_countColumns` for row `i`: cover
     * the column of the first star of the row whose column is uncovered and
     * return it; return `m` when there is none.
     */
    method CoverFirstStar(i: int) returns (j: int)
      requires Valid() && 0 <= i < n
      modifies colCovered
      ensures 0 <= j <= m
      ensures forall j' :: 0 <= j' < j ==> old(colCovered[j']) || marks[i, j'] != Marked
      ensures j < m ==> !old(colCovered[j]) && marks[i, j] == Marked
      ensures forall j' :: 0 <= j' < m ==> colCovered[j'] == (j' == j || old(colCovered[j']))
    {
      j := 0;
      while j < m
        invariant 0 <= j <= m
        invariant forall j' :: 0 <= j' < j ==> colCovered[j'] || marks[i, j'] != Marked
        invariant unchanged(colCovered)
      {
        if !colCovered[j] && marks[i, j] == Marked {
          colCovered[j] := true;
          return;
        }
        j := j + 1;
      }
    }

    /**
     * Recount the covered columns from the stars (`kuhn_countColumns`). Only
     * starred columns get covered and a full count means every row is
     * starred; with one star per row and column, the covered columns are
     * exactly the starred ones and the count reaches `n` exactly when every
     * row is starred.
     */
    method CountColumns() returns (count: int)
      requires Valid()
      modifies colCovered
      ensures forall j :: 0 <= j < m && colCovered[j] ==> ColHasStar(j)
      ensures count == |CoveredCols()| && count <= n
      ensures count == n ==> forall i :: 0 <= i < n ==> RowHasStar(i)
      ensures StarsUnique() ==> forall j :: 0 <= j < m ==> (colCovered[j] <==> ColHasStar(j))
      ensures StarsUnique() ==> (count == n <==> forall i :: 0 <= i < n ==> RowHasStar(i))
    {
      forall j | 0 <= j < m {
        colCovered[j] := false;
      }
      assert CoveredCols() == {};
      ghost var unique := StarsUnique();
      ghost var colRow: seq<int> := seq(m, _ => -1);
      ghost var rowCol: seq<int> := seq(n, _ => -1);
      count := 0;
      var i := 0;
      while i < n
        invariant 0 <= i <= n
        invariant CountInv(i, count, colRow, rowCol, unique)
      {
        count, colRow, rowCol := CountRow(i, count, colRow, rowCol, unique);
        i := i + 1;
      }
      CoverRecords(colRow, rowCol, count == n);
    }

    /** The loop invariant of `kuhn_countColumns` after `i` rows. */
    ghost predicate CountInv(i: int, count: int, colRow: seq<int>, rowCol: seq<int>, unique: bool)
      reads marks, colCovered
      requires Valid() && 0 <= i <= n
    {
      && |colRow| == m && |rowCol| == n
      && (forall j :: 0 <= j < m ==> (colCovered[j] <==> colRow[j] != -1))
      && (forall j :: 0 <= j < m && colRow[j] != -1 ==> 0 <= colRow[j] < i && marks[colRow[j], j] == Marked)
      && (forall i' :: 0 <= i' < n && rowCol[i'] != -1 ==> i' < i && 0 <= rowCol[i'] < m && marks[i', rowCol[i']] == Marked)
      && count == |CoveredCols()|
      && count <= i
      && (count == i <==> forall i' :: 0 <= i' < i ==> rowCol[i'] != -1)
      && (unique ==> forall i', j {:trigger rowCol[i'], marks[i', j]} :: 0 <= i' < i && rowCol[i'] == -1 && 0 <= j < m ==> marks[i', j] != Marked)
      && (unique ==> forall i', j :: 0 <= i' < i && 0 <= j < m && marks[i', j] == Marked ==> colCovered[j])
      && (unique ==> StarsUnique())
    }

    /** One row of `kuhn_countColumns`: the inner scan and the count. */
    method CountRow(i: int, count: int, ghost colRow: seq<int>, ghost rowCol: seq<int>, ghost unique: bool)
      returns (count': int, ghost colRow': seq<int>, ghost rowCol': seq<int>)
      requires Valid() && 0 <= i < n && CountInv(i, count, colRow, rowCol, unique)
      modifies colCovered
      ensures CountInv(i + 1, count', colRow', rowCol', unique)
    {
      ghost var before := CoveredCols();
      var j := CoverFirstStar(i);
      if j < m {
        colRow' := colRow[j := i];
        rowCol' := rowCol[i := j];
        assert forall i' :: 0 <= i' < i ==> rowCol'[i'] == rowCol[i'];
        assert CoveredCols() == before + {j};
        count' := count + 1;
      } else {
        colRow', rowCol' := colRow, rowCol;
        assert CoveredCols() == before;
        assert rowCol[i] == -1;
        count' := count;
      }
    }

    /**
     * Cover records: `colRow[j]` is a star row of each covered column `j`
     * and `rowCol[i]` (or -1) a star column of row `i`. Then covered columns
     * are starred; with unique stars, exactly the starred ones are covered
     * and the rows without a record are the rows without a star.
     */
    lemma CoverRecords(colRow: seq<int>, rowCol: seq<int>, full: bool)
      requires Valid() && |colRow| == m && |rowCol| == n
      requires forall j :: 0 <= j < m ==> (colCovered[j] <==> colRow[j] != -1)
      requires forall j :: 0 <= j < m && colRow[j] != -1 ==> 0 <= colRow[j] < n && marks[colRow[j], j] == Marked
      requires forall i :: 0 <= i < n && rowCol[i] != -1 ==> 0 <= rowCol[i] < m && marks[i, rowCol[i]] == Marked
      requires full <==> forall i :: 0 <= i < n ==> rowCol[i] != -1
      requires StarsUnique() ==> forall i, j :: 0 <= i < n && rowCol[i] == -1 && 0 <= j < m ==> marks[i, j] != Marked
      requires StarsUnique() ==> forall i, j :: 0 <= i < n && 0 <= j < m && marks[i, j] == Marked ==> colCovered[j]
      ensures forall j :: 0 <= j < m && colCovered[j] ==> ColHasStar(j)
      ensures full ==> forall i :: 0 <= i < n ==> RowHasStar(i)
      ensures StarsUnique() ==> forall j :: 0 <= j < m ==> (colCovered[j] <==> ColHasStar(j))
      ensures StarsUnique() ==> (full <==> forall i :: 0 <= i < n ==> RowHasStar(i))
    {
      forall j | 0 <= j < m && colCovered[j]
        ensures ColHasStar(j)
      {
        assert marks[colRow[j], j] == Marked;
      }
      forall i | 0 <= i < n
        ensures rowCol[i] != -1 ==> RowHasStar(i)
        ensures StarsUnique() && RowHasStar(i) ==> rowCol[i] != -1
      {
        if rowCol[i] != -1 {
          assert marks[i, rowCol[i]] == Marked;
        }
      }
    }

    /**
     * The least cell in an uncovered row and an uncovered column, or `CellMax`
     * when there is none (`kuhn_addAndSubtract`).
     */
    method UncoveredMinimum() returns (min: int)
      requires Valid() && CellsBounded()
      ensures IsCell(min)
      ensures forall i, j :: 0 <= i < n && 0 <= j < m && !rowCovered[i] && !colCovered[j] ==> min <= table[i, j]
      ensures min == CellMax || exists i, j :: 0 <= i < n && 0 <= j < m && !rowCovered[i] && !colCovered[j] && table[i, j] == min
    {
      min := CellMax;
      ghost var wi, wj := -1, -1;
      var i := 0;
      while i < n
        invariant 0 <= i <= n && IsCell(min)
        invariant forall i', j :: 0 <= i' < i && 0 <= j < m && !rowCovered[i'] && !colCovered[j] ==> min <= table[i', j]
        invariant min == CellMax || (0 <= wi < n && 0 <= wj < m && !rowCovered[wi] && !colCovered[wj] && table[wi, wj] == min)
      {
        if !rowCovered[i] {
          var j := 0;
          while j < m
            invariant 0 <= j <= m && IsCell(min)
            invariant forall i', j' :: 0 <= i' < i && 0 <= j' < m && !rowCovered[i'] && !colCovered[j'] ==> min <= table[i', j']
            invariant forall j' :: 0 <= j' < j && !colCovered[j'] ==> min <= table[i, j']
            invariant min == CellMax || (0 <= wi < n && 0 <= wj < m && !rowCovered[wi] && !colCovered[wj] && table[wi, wj] == min)
          {
            if !colCovered[j] && min > table[i, j] {
              min := table[i, j];
              wi, wj := i, j;
            }
            j := j + 1;
          }
        }
        i := i + 1;
      }
    }

    /** One row of the adjustment in `kuhn_addAndSubtract`. */
    method AdjustRow(i: int, min: int)
      requires Valid() && 0 <= i < n && IsCell(min)
      requires forall j :: 0 <= j < m ==> IsCell(table[i, j])
      requires !rowCovered[i] ==> forall j :: 0 <= j < m && !colCovered[j] ==> min <= table[i, j]
      modifies table
      ensures forall j :: 0 <= j < m ==>
        table[i, j] == (if rowCovered[i] && colCovered[j] then AddWrap(old(table[i, j]), min)
         else if !rowCovered[i] && !colCovered[j] then old(table[i, j]) - min
         else old(table[i, j]))
      ensures forall i', j :: 0 <= i' < n && i' != i && 0 <= j < m ==> table[i', j] == old(table[i', j])
    {
      var j := 0;
      while j < m
        invariant 0 <= j <= m
        invariant forall j' :: 0 <= j' < j ==>
          table[i, j'] == (if rowCovered[i] && colCovered[j'] then AddWrap(old(table[i, j']), min)
           else if !rowCovered[i] && !colCovered[j'] then old(table[i, j']) - min
           else old(table[i, j']))
        invariant forall j' :: j <= j' < m ==> table[i, j'] == old(table[i, j'])
        invariant forall i', j' :: 0 <= i' < n && i' != i && 0 <= j' < m ==> table[i', j'] == old(table[i', j'])
      {
        if rowCovered[i] {
          if colCovered[j] {
            table[i, j] := AddWrap(table[i, j], min);
          }
        } else {
          if !colCovered[j] {
            table[i, j] := table[i, j] - min;
          }
        }
        j := j + 1;
      }
    }

    /**
     * The dual adjustment (`kuhn_addAndSubtract`): with `min` the least
     * uncovered cell, uncovered cells drop by `min` (never below zero, and
     * one of them reaches zero), doubly covered cells rise by `min` modulo
     * 2^64, and the rest are unchanged. After a failed prime search the
     * stars and primes still sit on zeros.
     */
    method AddAndSubtract() returns (ghost min: int)
      requires Valid() && CellsBounded()
      modifies table
      ensures CellsBounded()
      ensures IsCell(min)
      ensures forall i, j :: 0 <= i < n && 0 <= j < m && !rowCovered[i] && !colCovered[j] ==> min <= old(table[i, j])
      ensures min == CellMax || exists i, j :: 0 <= i < n && 0 <= j < m && !rowCovered[i] && !colCovered[j] && old(table[i, j]) == min
      ensures forall i, j :: 0 <= i < n && 0 <= j < m ==>
        table[i, j] == (if rowCovered[i] && colCovered[j] then AddWrap(old(table[i, j]), min)
         else if !rowCovered[i] && !colCovered[j] then old(table[i, j]) - min
         else old(table[i, j]))
      ensures (exists i, j :: 0 <= i < n && 0 <= j < m && !rowCovered[i] && !colCovered[j]) ==>
        exists i, j :: 0 <= i < n && 0 <= j < m && !rowCovered[i] && !colCovered[j] && table[i, j] == 0
      ensures old(NoUncoveredZero() && RowCoverOk() && PrimesUncovered() && MarksOnZeros()) ==> MarksOnZeros()
    {
      var low := UncoveredMinimum();
      min := low;
      var i := 0;
      while i < n
        invariant 0 <= i <= n
        invariant forall i', j :: 0 <= i' < i && 0 <= j < m ==>
          table[i', j] == (if rowCovered[i'] && colCovered[j] then AddWrap(old(table[i', j]), min)
           else if !rowCovered[i'] && !colCovered[j] then old(table[i', j]) - min
           else old(table[i', j]))
        invariant forall i', j :: i <= i' < n && 0 <= j < m ==> table[i', j] == old(table[i', j])
      {
        AdjustRow(i, low);
        i := i + 1;
      }
      if exists i, j :: 0 <= i < n && 0 <= j < m && !rowCovered[i] && !colCovered[j] {
        var i, j :| 0 <= i < n && 0 <= j < m && !rowCovered[i] && !colCovered[j];
        if min != CellMax {
          var i', j' :| 0 <= i' < n && 0 <= j' < m && !rowCovered[i'] && !colCovered[j'] && old(table[i', j']) == min;
          assert table[i', j'] == 0;
        } else {
          assert table[i, j] == 0;
        }
      }
    }

    /**
     * The assignment read off the stars (`kuhn_assign`): entry `i` is row `i`
     * with the last starred column of the row, or (-1, -1) for a row without
     * a star. With one star per row and column the starred entries use
     * distinct columns.
     */
    method Assign() returns (assignment: seq<(int, int)>)
      requires Valid()
      ensures |assignment| == n
      ensures forall i :: 0 <= i < n ==> (RowHasStar(i) <==> assignment[i] != (-1, -1))
      ensures forall i :: 0 <= i < n && RowHasStar(i) ==>
        assignment[i].0 == i && 0 <= assignment[i].1 < m && marks[i, assignment[i].1] == Marked
        && forall j :: assignment[i].1 < j < m ==> marks[i, j] != Marked
      ensures StarsUnique() ==> forall i1, i2 :: 0 <= i1 < i2 < n && RowHasStar(i1) && RowHasStar(i2) ==> assignment[i1].1 != assignment[i2].1
    {
      assignment := [];
      var i := 0;
      while i < n
        invariant 0 <= i <= n && |assignment| == i
        invariant forall i' :: 0 <= i' < i ==> (RowHasStar(i') <==> assignment[i'] != (-1, -1))
        invariant forall i' :: 0 <= i' < i && RowHasStar(i') ==>
          assignment[i'].0 == i' && 0 <= assignment[i'].1 < m && marks[i', assignment[i'].1] == Marked
          && forall j :: assignment[i'].1 < j < m ==> marks[i', j] != Marked
      {
        var pair := (-1, -1);
        var j := 0;
        while j < m
          invariant 0 <= j <= m
          invariant pair == (-1, -1) ==> forall j' :: 0 <= j' < j ==> marks[i, j'] != Marked
          invariant pair != (-1, -1) ==> pair.0 == i && 0 <= pair.1 < j && marks[i, pair.1] == Marked
          invariant pair != (-1, -1) ==> forall j' :: pair.1 < j' < j ==> marks[i, j'] != Marked
        {
          if marks[i, j] == Marked {
            pair := (i, j);
          }
          j := j + 1;
        }
        assignment := assignment + [pair];
        i := i + 1;
      }
    }

    /** Row-major index of cell (i, j), as the zero set numbers cells. */
    function Idx(i: int, j: int): (p: int)
      requires 0 <= i < n && 0 <= j < m
      ensures 0 <= p < n * m && p / m == i && p % m == j
    {
      RowMajor(i, j, n, m)
    }

    /** The BitSet `z` shares no array with this run. */
    ghost predicate Apart(z: BitSet)
    {
      && z.prev != rowPrimes && z.prev != colMarks && z.next != rowPrimes && z.next != colMarks
      && z.limbs as object != table && z.limbs as object != marks
      && z.limbs as object != rowCovered && z.limbs as object != colCovered
      && z.prev as object != rowCovered && z.prev as object != colCovered
      && z.next as object != rowCovered && z.next as object != colCovered
      && z.prev as object != table && z.prev as object != marks
      && z.next as object != table && z.next as object != marks
    }

    /**
     * The zero set of `kuhn_findPrime`: its members are zeros in uncovered
     * columns, a member in a covered row is that row's star, and every zero in
     * an uncovered row and an uncovered column is a member.
     */
    ghost predicate ZeroSetOk(Z: set<int>)
      reads table, marks, rowCovered, colCovered
      requires Valid()
    {
      && (forall p :: p in Z ==> 0 <= p < n * m)
      && (forall i, j :: 0 <= i < n && 0 <= j < m && Idx(i, j) in Z ==>
            table[i, j] == 0 && !colCovered[j] && (rowCovered[i] ==> marks[i, j] == Marked))
      && (forall i, j :: 0 <= i < n && 0 <= j < m && !rowCovered[i] && !colCovered[j] && table[i, j] == 0 ==> Idx(i, j) in Z)
    }

    /** The mark and cover invariants the prime search keeps. */
    ghost predicate SearchOk()
      reads table, marks, rowCovered, colCovered
      requires Valid()
    {
      StarsUnique() && MarksOnZeros() && PrimesUncovered() && StarsPrimed() && RowCoverOk()
    }

    /** The first starred column of row `i`, or `m` (`kuhn_findPrime`). */
    method FindStar(i: int) returns (j: int)
      requires Valid() && 0 <= i < n
      ensures 0 <= j <= m
      ensures j < m ==> marks[i, j] == Marked
      ensures forall j' :: 0 <= j' < j ==> marks[i, j'] != Marked
      ensures j == m <==> !RowHasStar(i)
    {
      j := 0;
      while j < m && marks[i, j] != Marked
        invariant 0 <= j <= m
        invariant forall j' :: 0 <= j' < j ==> marks[i, j'] != Marked
      {
        j := j + 1;
      }
    }

    /** The initial zero set: every zero in an uncovered column (`kuhn_findPrime`). */
    method ZeroSet() returns (z: BitSet)
      requires Valid()
      ensures fresh(z) && fresh(z.limbs) && fresh(z.prev) && fresh(z.next)
      ensures z.Valid() && z.size == n * m && Apart(z)
      ensures forall i, j :: 0 <= i < n && 0 <= j < m ==> (Idx(i, j) in z.Elems <==> !colCovered[j] && table[i, j] == 0)
    {
      z := new BitSet(n * m);
      var i := 0;
      while i < n
        invariant 0 <= i <= n
        invariant fresh(z) && fresh(z.limbs) && fresh(z.prev) && fresh(z.next)
        invariant z.Valid() && z.size == n * m
        invariant forall i', j' :: 0 <= i' < n && 0 <= j' < m ==>
          (Idx(i', j') in z.Elems <==> i' < i && !colCovered[j'] && table[i', j'] == 0)
      {
        var j := 0;
        while j < m
          invariant 0 <= j <= m
          invariant fresh(z) && fresh(z.limbs) && fresh(z.prev) && fresh(z.next)
          invariant z.Valid() && z.size == n * m
          invariant forall i', j' :: 0 <= i' < n && 0 <= j' < m ==>
            (Idx(i', j') in z.Elems <==> (i' < i || (i' == i && j' < j)) && !colCovered[j'] && table[i', j'] == 0)
        {
          if !colCovered[j] && table[i, j] == 0 {
            z.Set(Idx(i, j));
          }
          j := j + 1;
        }
        i := i + 1;
      }
    }

    /**
     * Column `col` has just been uncovered and row `row` covered: the zeros
     * of the column join the set in uncovered rows and leave it in covered
     * ones, except in row `row` (`kuhn_findPrime`).
     */
    method UncoverColumn(z: BitSet, row: int, col: int)
      requires Valid() && 0 <= row < n && 0 <= col < m
      requires z.Valid() && z.size == n * m && Apart(z)
      modifies z, z.limbs, z.prev, z.next
      ensures z.Valid() && z.size == n * m
      ensures forall i, j :: 0 <= i < n && 0 <= j < m ==>
        (Idx(i, j) in z.Elems <==>
          if j == col && i != row && table[i, col] == 0 then !rowCovered[i] else Idx(i, j) in old(z.Elems))
    {
      var i := 0;
      while i < n
        invariant 0 <= i <= n
        invariant z.Valid() && z.size == n * m
        invariant forall i', j :: 0 <= i' < n && 0 <= j < m ==>
          (Idx(i', j) in z.Elems <==>
            if j == col && i' != row && i' < i && table[i', col] == 0 then !rowCovered[i'] else Idx(i', j) in old(z.Elems))
      {
        if row != i && table[i, col] == 0 {
          if !rowCovered[i] {
            z.Set(Idx(i, col));
          } else {
            z.Unset(Idx(i, col));
          }
        }
        i := i + 1;
      }
    }

    /** Row `row` has just been covered: its zeros leave the set, except in column `col`. */
    method CoverRowZeros(z: BitSet, row: int, col: int)
      requires Valid() && 0 <= row < n && 0 <= col < m
      requires z.Valid() && z.size == n * m && Apart(z)
      modifies z, z.limbs, z.prev, z.next
      ensures z.Valid() && z.size == n * m
      ensures forall i, j :: 0 <= i < n && 0 <= j < m ==>
        (Idx(i, j) in z.Elems <==> !(i == row && j != col && table[row, j] == 0) && Idx(i, j) in old(z.Elems))
    {
      var j := 0;
      while j < m
        invariant 0 <= j <= m
        invariant z.Valid() && z.size == n * m
        invariant forall i, j' :: 0 <= i < n && 0 <= j' < m ==>
          (Idx(i, j') in z.Elems <==> !(i == row && j' != col && j' < j && table[row, j'] == 0) && Idx(i, j') in old(z.Elems))
      {
        if col != j && table[row, j] == 0 {
          z.Unset(Idx(row, j));
        }
        j := j + 1;
      }
    }

    /**
     * Cover the row of a prime whose row holds its star at `col`, and
     * uncover that column (`kuhn_findPrime`).
     */
    method CoverStar(row: int, col: int)
      requires Valid() && 0 <= row < n && 0 <= col < m
      requires SearchOk() && marks[row, col] == Marked && RowHasPrime(row)
      modifies rowCovered, colCovered
      ensures SearchOk()
      ensures forall i :: 0 <= i < n ==> rowCovered[i] == (i == row || old(rowCovered[i]))
      ensures forall j :: 0 <= j < m ==> colCovered[j] == (j != col && old(colCovered[j]))
    {
      rowCovered[row] := true;
      colCovered[col] := false;
    }

    /**
     * The search moves on from the prime at (row, pcol), whose row holds its
     * star at `col`: drop the prime's cell from the set, cover the row,
     * uncover the star's column and bring the zero set up to date
     * (`kuhn_findPrime`).
     */
    method Advance(z: BitSet, row: int, pcol: int, col: int)
      requires Valid() && 0 <= row < n && 0 <= pcol < m && 0 <= col < m
      requires z.Valid() && z.size == n * m && Apart(z)
      requires SearchOk() && ZeroSetOk(z.Elems)
      requires !rowCovered[row] && marks[row, col] == Marked && marks[row, pcol] == Prime
      modifies rowCovered, colCovered, z, z.limbs, z.prev, z.next
      ensures z.Valid() && z.size == n * m
      ensures SearchOk() && ZeroSetOk(z.Elems)
      ensures forall i :: 0 <= i < n ==> rowCovered[i] == (i == row || old(rowCovered[i]))
      ensures forall j :: 0 <= j < m ==> colCovered[j] == (j != col && old(colCovered[j]))
    {
      ghost var Z0 := z.Elems;
      z.Unset(Idx(row, pcol));
      CoverStar(row, col);
      ghost var Z1 := z.Elems;
      UncoverColumn(z, row, col);
      ghost var Z2 := z.Elems;
      CoverRowZeros(z, row, col);
      forall i, j | 0 <= i < n && 0 <= j < m && Idx(i, j) in z.Elems
        ensures table[i, j] == 0 && !colCovered[j] && (rowCovered[i] ==> marks[i, j] == Marked)
      {
        assert Idx(i, j) in Z2;
        if j == col && i != row && table[i, col] == 0 {
          assert !rowCovered[i];
        } else {
          assert Idx(i, j) in Z1 && Idx(i, j) in Z0 && Idx(i, j) != Idx(row, pcol);
        }
      }
      forall i, j | 0 <= i < n && 0 <= j < m && !rowCovered[i] && !colCovered[j] && table[i, j] == 0
        ensures Idx(i, j) in z.Elems
      {
        if j != col {
          assert Idx(i, j) in Z0 && Idx(i, j) != Idx(row, pcol);
          assert Idx(i, j) in Z1;
        }
        assert Idx(i, j) in Z2;
      }
    }

    /** Prime the zero at (`row`, `col`) taken from the zero set (`kuhn_findPrime`). */
    method PrimeZero(row: int, col: int, ghost Z: set<int>)
      requires Valid() && 0 <= row < n && 0 <= col < m
      requires SearchOk() && ZeroSetOk(Z) && Idx(row, col) in Z
      modifies marks
      ensures SearchOk() && marks[row, col] == Prime
      ensures !rowCovered[row] ==> ZeroSetOk(Z)
      ensures forall i, j :: 0 <= i < n && 0 <= j < m && (i != row || j != col) ==> marks[i, j] == old(marks[i, j])
    {
      marks[row, col] := Prime;
    }

    /**
     * Prime the zero `p` taken from the set. When its row holds no star the
     * search ends with it; otherwise the search advances (`kuhn_findPrime`). The zero may be a star left in an uncovered column by
     * an earlier search, in which case the prime overwrites it and the row
     * is left without a star.
     */
    method Visit(z: BitSet, p: int) returns (stop: bool, row: int, col: int)
      requires Valid() && z.Valid() && z.size == n * m && Apart(z)
      requires SearchOk() && ZeroSetOk(z.Elems) && p in z.Elems
      modifies marks, rowCovered, colCovered, z, z.limbs, z.prev, z.next
      ensures z.Valid() && z.size == n * m
      ensures SearchOk()
      ensures 0 <= row < n && 0 <= col < m
      ensures stop ==> marks[row, col] == Prime && !RowHasStar(row) && !colCovered[col]
      ensures !stop ==> ZeroSetOk(z.Elems) && !old(rowCovered[row])
      ensures forall i :: 0 <= i < n ==> rowCovered[i] == ((!stop && i == row) || old(rowCovered[i]))
      ensures forall j :: 0 <= j < m && colCovered[j] ==> old(colCovered[j])
      ensures forall i, j :: 0 <= i < n && 0 <= j < m && marks[i, j] != old(marks[i, j]) ==> marks[i, j] == Prime
    {
      assert m > 0;
      CellOfIdx(p, n, m);
      row := p / m;
      col := p % m;
      assert Idx(row, col) == p;
      PrimeZero(row, col, z.Elems);
      var j := FindStar(row);
      if j == m {
        return true, row, col;
      }
      assert !rowCovered[row];
      Advance(z, row, col, j);
      stop, col := false, j;
    }

    /**
     * The prime search (`kuhn_findPrime`). It either ends on a prime in an
     * uncovered column whose row holds no star, or reports that no zero is
     * left in an uncovered row and an uncovered column. Columns are only
     * ever uncovered, marks only ever become primes, and the mark and cover
     * invariants hold throughout.
     */
    method FindPrime() returns (found: bool, row: int, col: int)
      requires Valid() && StarsUnique() && MarksOnZeros() && PrimesUncovered() && StarsPrimed()
      modifies marks, rowCovered, colCovered
      ensures SearchOk()
      ensures forall j :: 0 <= j < m && colCovered[j] ==> old(colCovered[j])
      ensures forall i, j :: 0 <= i < n && 0 <= j < m && marks[i, j] != old(marks[i, j]) ==> marks[i, j] == Prime
      ensures found ==> 0 <= row < n && 0 <= col < m && marks[row, col] == Prime && !RowHasStar(row) && !colCovered[col]
      ensures !found ==> NoUncoveredZero()
    {
      var zeroes := ZeroSet();
      forall i | 0 <= i < n {
        rowCovered[i] := false;
      }
      ghost var uncovered := set i | 0 <= i < n && !rowCovered[i];
      while true
        invariant zeroes.Valid() && zeroes.size == n * m && Apart(zeroes)
        invariant fresh(zeroes) && fresh(zeroes.limbs) && fresh(zeroes.prev) && fresh(zeroes.next)
        invariant SearchOk() && ZeroSetOk(zeroes.Elems)
        invariant forall i :: 0 <= i < n && !rowCovered[i] ==> i in uncovered
        invariant forall j :: 0 <= j < m && colCovered[j] ==> old(colCovered[j])
        invariant forall i, j :: 0 <= i < n && 0 <= j < m && marks[i, j] != old(marks[i, j]) ==> marks[i, j] == Prime
        decreases uncovered
      {
        var p := zeroes.Any();
        if p < 0 {
          return false, -1, -1;
        }
        var stop;
        stop, row, col := Visit(zeroes, p);
        if stop {
          return true, row, col;
        }
        uncovered := uncovered - {row};
      }
    }

    /**
     * One row of the snapshot in `kuhn_altMarks`: each star
     * of row `i` records `i` as its column's star row, and the row's last
     * prime in column order is recorded as the row's prime column.
     */
    method SnapshotRow(i: int)
      requires Valid() && 0 <= i < n
      modifies rowPrimes, colMarks
      ensures forall j :: 0 <= j < m ==> colMarks[j] == if marks[i, j] == Marked then i else old(colMarks[j])
      ensures forall i' :: 0 <= i' < n && i' != i ==> rowPrimes[i'] == old(rowPrimes[i'])
      ensures || (rowPrimes[i] == old(rowPrimes[i]) && forall j :: 0 <= j < m ==> marks[i, j] != Prime)
              || (0 <= rowPrimes[i] < m && marks[i, rowPrimes[i]] == Prime && forall j :: rowPrimes[i] < j < m ==> marks[i, j] != Prime)
    {
      var j := 0;
      while j < m
        invariant 0 <= j <= m
        invariant forall j' :: 0 <= j' < j ==> colMarks[j'] == if marks[i, j'] == Marked then i else old(colMarks[j'])
        invariant forall j' :: j <= j' < m ==> colMarks[j'] == old(colMarks[j'])
        invariant forall i' :: 0 <= i' < n && i' != i ==> rowPrimes[i'] == old(rowPrimes[i'])
        invariant || (rowPrimes[i] == old(rowPrimes[i]) && forall j' :: 0 <= j' < j ==> marks[i, j'] != Prime)
                  || (0 <= rowPrimes[i] < j && marks[i, rowPrimes[i]] == Prime && forall j' :: rowPrimes[i] < j' < j ==> marks[i, j'] != Prime)
      {
        if marks[i, j] == Marked {
          colMarks[j] := i;
        } else if marks[i, j] == Prime {
          rowPrimes[i] := j;
        }
        j := j + 1;
      }
    }

    /**
     * The snapshot taken by `kuhn_altMarks` before the walk:
     * `colMarks[j]` is the last row holding a star in column `j`, or -1 when
     * the column has none; `rowPrimes[i]` is the last column holding a prime
     * in row `i`, or -1 when the row has none.
     */
    ghost predicate SnapshotOk()
      reads marks, rowPrimes, colMarks
      requires Valid()
    {
      && (forall i :: 0 <= i < n && rowPrimes[i] == -1 ==> forall j :: 0 <= j < m ==> marks[i, j] != Prime)
      && (forall i :: 0 <= i < n && rowPrimes[i] != -1 ==>
            0 <= rowPrimes[i] < m && marks[i, rowPrimes[i]] == Prime && forall j :: rowPrimes[i] < j < m ==> marks[i, j] != Prime)
      && (forall j :: 0 <= j < m && colMarks[j] == -1 ==> forall i :: 0 <= i < n ==> marks[i, j] != Marked)
      && (forall j :: 0 <= j < m && colMarks[j] != -1 ==>
            0 <= colMarks[j] < n && marks[colMarks[j], j] == Marked && forall i :: colMarks[j] < i < n ==> marks[i, j] != Marked)
    }

    /** Take the snapshot (`kuhn_altMarks`). */
    method Snapshot()
      requires Valid()
      modifies rowPrimes, colMarks
      ensures SnapshotOk()
    {
      forall i | 0 <= i < n {
        rowPrimes[i] := -1;
      }
      forall j | 0 <= j < m {
        colMarks[j] := -1;
      }
      var i := 0;
      while i < n
        invariant 0 <= i <= n
        invariant forall i' :: i <= i' < n ==> rowPrimes[i'] == -1
        invariant forall i' :: 0 <= i' < i && rowPrimes[i'] == -1 ==> forall j :: 0 <= j < m ==> marks[i', j] != Prime
        invariant forall i' :: 0 <= i' < i && rowPrimes[i'] != -1 ==>
          0 <= rowPrimes[i'] < m && marks[i', rowPrimes[i']] == Prime && forall j :: rowPrimes[i'] < j < m ==> marks[i', j] != Prime
        invariant forall j :: 0 <= j < m && colMarks[j] == -1 ==> forall i' :: 0 <= i' < i ==> marks[i', j] != Marked
        invariant forall j :: 0 <= j < m && colMarks[j] != -1 ==>
          0 <= colMarks[j] < i && marks[colMarks[j], j] == Marked && forall i' :: colMarks[j] < i' < i ==> marks[i', j] != Marked
      {
        SnapshotRow(i);
        i := i + 1;
      }
    }

    /** Toggle a cell between star and no star (`kuhn_altMark`); a prime becomes a star. */
    method AltMark(r: int, c: int)
      requires Valid() && 0 <= r < n && 0 <= c < m
      modifies marks
      ensures marks[r, c] == if old(marks[r, c]) == Marked then Unmarked else Marked
      ensures forall i, j :: 0 <= i < n && 0 <= j < m && (i != r || j != c) ==> marks[i, j] == old(marks[i, j])
    {
      if marks[r, c] == Marked {
        marks[r, c] := Unmarked;
      } else {
        marks[r, c] := Marked;
      }
    }

    /** Erase every prime (`kuhn_altMarks`). */
    method ClearPrimes()
      requires Valid()
      modifies marks
      ensures forall i, j :: 0 <= i < n && 0 <= j < m ==> marks[i, j] == if old(marks[i, j]) == Prime then Unmarked else old(marks[i, j])
    {
      var i := 0;
      while i < n
        invariant 0 <= i <= n
        invariant forall i', j :: 0 <= i' < n && 0 <= j < m ==>
          marks[i', j] == if i' < i && old(marks[i', j]) == Prime then Unmarked else old(marks[i', j])
      {
        var j := 0;
        while j < m
          invariant 0 <= j <= m
          invariant forall i', j' :: 0 <= i' < n && 0 <= j' < m ==>
            marks[i', j'] == if (i' < i || (i' == i && j' < j)) && old(marks[i', j']) == Prime then Unmarked else old(marks[i', j'])
        {
          if marks[i, j] == Prime {
            marks[i, j] := Unmarked;
          }
          j := j + 1;
        }
        i := i + 1;
      }
    }

    /** The marks as a value, so that a later state can be compared with it. */
    ghost function Grid(): (g: seq<seq<Mark>>)
      reads marks
      requires Valid()
      ensures |g| == n && forall i :: 0 <= i < n ==> |g[i]| == m
      ensures forall i, j :: 0 <= i < n && 0 <= j < m ==> g[i][j] == marks[i, j]
    {
      seq(n, i requires 0 <= i < n reads marks => seq(m, j requires 0 <= j < m reads marks => marks[i, j]))
    }

    /** `M0` is an n-by-m grid of marks with at most one star per row and per column. */
    ghost predicate GridUnique(M0: seq<seq<Mark>>)
    {
      && |M0| == n && (forall i :: 0 <= i < n ==> |M0[i]| == m)
      && (forall i, j1, j2 :: 0 <= i < n && 0 <= j1 < m && 0 <= j2 < m && M0[i][j1] == Marked && M0[i][j2] == Marked ==> j1 == j2)
      && (forall i1, i2, j :: 0 <= i1 < n && 0 <= i2 < n && 0 <= j < m && M0[i1][j] == Marked && M0[i2][j] == Marked ==> i1 == i2)
    }

    /**
     * A walk over the marks `M0` from the prime (r0, c0) of a starless row,
     * through the distinct columns `cols` (c0 first): row `rows[k]` holds the
     * star of column `cols[k]`, and its recorded prime sits in column
     * `cols[k + 1]`.
     */
    ghost predicate Chain(M0: seq<seq<Mark>>, r0: int, c0: int, rows: seq<int>, cols: seq<int>)
      reads rowPrimes
      requires Valid() && GridUnique(M0)
    {
      && 0 <= r0 < n && 0 <= c0 < m
      && M0[r0][c0] == Prime && (forall j :: 0 <= j < m ==> M0[r0][j] != Marked)
      && |cols| == |rows| + 1 && cols[0] == c0
      && (forall k :: 0 <= k < |cols| ==> 0 <= cols[k] < m)
      && (forall k, l :: 0 <= k < l < |cols| ==> cols[k] != cols[l])
      && (forall k :: 0 <= k < |rows| ==>
            0 <= rows[k] < n && M0[rows[k]][cols[k]] == Marked && rowPrimes[rows[k]] == cols[k + 1] && M0[rows[k]][cols[k + 1]] == Prime)
    }

    /** The marks are `M0` with the prime (r0, c0) starred and, in each row of `rows`, the star removed and the recorded prime starred. */
    ghost predicate Flipped(M0: seq<seq<Mark>>, r0: int, c0: int, rows: seq<int>)
      reads marks, rowPrimes
      requires Valid() && GridUnique(M0)
    {
      forall i, j :: 0 <= i < n && 0 <= j < m ==>
        marks[i, j] == (
          if (i == r0 && j == c0) || (i in rows && j == rowPrimes[i]) then Marked
          else if i in rows && M0[i][j] == Marked then Unmarked
          else M0[i][j])
    }

    /**
     * What the walk reads from the snapshot, stated over the marks `M0` it
     * was taken from: the star row of each column, and for a star in an
     * uncovered column the recorded prime of its row; primes lie in
     * uncovered columns.
     */
    ghost predicate WalkReady(M0: seq<seq<Mark>>)
      reads rowPrimes, colMarks, colCovered
      requires Valid() && GridUnique(M0)
    {
      && (forall j :: 0 <= j < m && colMarks[j] != -1 ==> 0 <= colMarks[j] < n && M0[colMarks[j]][j] == Marked)
      && (forall j :: 0 <= j < m && colMarks[j] == -1 ==> forall i :: 0 <= i < n ==> M0[i][j] != Marked)
      && (forall i, j :: 0 <= i < n && 0 <= j < m && M0[i][j] == Marked && !colCovered[j] ==>
            0 <= rowPrimes[i] < m && M0[i][rowPrimes[i]] == Prime)
      && (forall i, j :: 0 <= i < n && 0 <= j < m && M0[i][j] == Prime ==> !colCovered[j])
    }

    /**
     * The next link of a walk whose last column `cols[|rows|]` is uncovered
     * and holds a star: the star's row is new to the walk, and its recorded
     * prime, in a column not yet visited, extends the walk.
     */
    lemma NextInChain(M0: seq<seq<Mark>>, r0: int, c0: int, rows: seq<int>, cols: seq<int>, row: int, pcol: int)
      requires Valid() && GridUnique(M0) && Chain(M0, r0, c0, rows, cols) && WalkReady(M0)
      requires !colCovered[cols[|rows|]] && row == colMarks[cols[|rows|]] && row != -1
      requires pcol == rowPrimes[row] && forall k :: 0 <= k < |cols| ==> cols[k] != pcol
      ensures 0 <= row < n && row != r0 && row !in rows
      ensures 0 <= pcol < m && !colCovered[pcol]
      ensures M0[row][cols[|rows|]] == Marked && M0[row][pcol] == Prime
      ensures Chain(M0, r0, c0, rows + [row], cols + [pcol])
    {
      ChainExtend(M0, r0, c0, rows, cols, row, pcol);
    }

    /** A walk extends by the star row of its last column and that row's recorded prime in a column not yet visited. */
    lemma ChainExtend(M0: seq<seq<Mark>>, r0: int, c0: int, rows: seq<int>, cols: seq<int>, row: int, pcol: int)
      requires Valid() && GridUnique(M0) && Chain(M0, r0, c0, rows, cols)
      requires 0 <= row < n && 0 <= pcol < m && M0[row][cols[|rows|]] == Marked
      requires rowPrimes[row] == pcol && M0[row][pcol] == Prime
      requires forall k :: 0 <= k < |cols| ==> cols[k] != pcol
      ensures Chain(M0, r0, c0, rows + [row], cols + [pcol])
    {
      var rows', cols' := rows + [row], cols + [pcol];
      forall k | 0 <= k < |rows'|
        ensures 0 <= rows'[k] < n && M0[rows'[k]][cols'[k]] == Marked && rowPrimes[rows'[k]] == cols'[k + 1] && M0[rows'[k]][cols'[k + 1]] == Prime
      {
        if k < |rows| {
          assert rows'[k] == rows[k] && cols'[k] == cols[k] && cols'[k + 1] == cols[k + 1];
        }
      }
      forall k, l | 0 <= k < l < |cols'|
        ensures cols'[k] != cols'[l]
      {
        if l < |cols| {
          assert cols'[k] == cols[k] && cols'[l] == cols[l];
        }
      }
    }

    /**
     * Where a star after (part of) a walk comes from: `a == -1` for a star
     * of `M0` left in place, otherwise the walk position `a` of its column
     * (the start cell for 0, row `rows[a - 1]` beyond).
     */
    lemma StarOrigin(M0: seq<seq<Mark>>, r0: int, c0: int, rows: seq<int>, cols: seq<int>, i: int, j: int) returns (a: int)
      requires Valid() && GridUnique(M0) && Chain(M0, r0, c0, rows, cols) && Flipped(M0, r0, c0, rows)
      requires 0 <= i < n && 0 <= j < m && marks[i, j] == Marked
      ensures -1 <= a < |cols|
      ensures a == -1 ==> i !in rows && i != r0 && M0[i][j] == Marked
      ensures a == 0 ==> i == r0 && j == c0
      ensures a > 0 ==> i == rows[a - 1] && j == cols[a] && M0[i][j] == Prime
    {
      if i == r0 && j == c0 {
        a := 0;
      } else if i in rows && j == rowPrimes[i] {
        var k :| 0 <= k < |rows| && rows[k] == i;
        a := k + 1;
      } else {
        a := -1;
      }
    }

    /** When the last column of a walk held no star, stars are still unique after it. */
    lemma WalkStarsUnique(M0: seq<seq<Mark>>, r0: int, c0: int, rows: seq<int>, cols: seq<int>)
      requires Valid() && GridUnique(M0) && Chain(M0, r0, c0, rows, cols) && Flipped(M0, r0, c0, rows)
      requires forall i :: 0 <= i < n ==> M0[i][cols[|rows|]] != Marked
      ensures StarsUnique()
    {
      forall i, j1, j2 | 0 <= i < n && 0 <= j1 < m && 0 <= j2 < m && marks[i, j1] == Marked && marks[i, j2] == Marked
        ensures j1 == j2
      {
        var a1 := StarOrigin(M0, r0, c0, rows, cols, i, j1);
        var a2 := StarOrigin(M0, r0, c0, rows, cols, i, j2);
        if a1 > 0 && a2 > 0 {
          assert a1 == a2;
        }
      }
      forall i1, i2, j | 0 <= i1 < n && 0 <= i2 < n && 0 <= j < m && marks[i1, j] == Marked && marks[i2, j] == Marked
        ensures i1 == i2
      {
        var a1 := StarOrigin(M0, r0, c0, rows, cols, i1, j);
        var a2 := StarOrigin(M0, r0, c0, rows, cols, i2, j);
      }
    }

    /**
     * What a finished walk leaves behind: when its last column held no star,
     * stars are still unique, exactly row r0 gained a star, and every star is
     * an old star or an old prime.
     */
    lemma WalkDone(M0: seq<seq<Mark>>, r0: int, c0: int, rows: seq<int>, cols: seq<int>)
      requires Valid() && GridUnique(M0) && Chain(M0, r0, c0, rows, cols) && Flipped(M0, r0, c0, rows)
      requires forall i :: 0 <= i < n ==> M0[i][cols[|rows|]] != Marked
      ensures StarsUnique()
      ensures forall i :: 0 <= i < n ==> (RowHasStar(i) <==> (exists j :: 0 <= j < m && M0[i][j] == Marked) || i == r0)
      ensures forall i, j :: 0 <= i < n && 0 <= j < m && marks[i, j] == Marked ==> M0[i][j] != Unmarked
    {
      WalkStarsUnique(M0, r0, c0, rows, cols);
      assert marks[r0, c0] == Marked;
      forall i, j | 0 <= i < n && 0 <= j < m && M0[i][j] == Marked
        ensures RowHasStar(i)
      {
        if k :| 0 <= k < |rows| && rows[k] == i {
          assert marks[i, cols[k + 1]] == Marked;
        } else {
          assert marks[i, j] == Marked;
        }
      }
      forall i, j | 0 <= i < n && 0 <= j < m && marks[i, j] == Marked
        ensures (exists j' :: 0 <= j' < m && M0[i][j'] == Marked) || i == r0
        ensures M0[i][j] != Unmarked
      {
        var a := StarOrigin(M0, r0, c0, rows, cols, i, j);
        if a > 0 {
          assert M0[i][cols[a - 1]] == Marked;
        }
      }
    }

    /**
     * One link of the walk: unstar the star (row, col) and
     * star the recorded prime (row, pcol) of a row the walk has not touched.
     */
    method Link(ghost M0: seq<seq<Mark>>, r0: int, c0: int, ghost rows: seq<int>, row: int, col: int, pcol: int)
      requires Valid() && GridUnique(M0) && Flipped(M0, r0, c0, rows)
      requires 0 <= row < n && 0 <= col < m && 0 <= pcol < m && row !in rows && row != r0
      requires M0[row][col] == Marked && M0[row][pcol] == Prime && rowPrimes[row] == pcol
      modifies marks
      ensures Flipped(M0, r0, c0, rows + [row])
    {
      AltMark(row, col);
      AltMark(row, pcol);
      forall i, j | 0 <= i < n && 0 <= j < m
        ensures marks[i, j] == (
          if (i == r0 && j == c0) || (i in rows + [row] && j == rowPrimes[i]) then Marked
          else if i in rows + [row] && M0[i][j] == Marked then Unmarked
          else M0[i][j])
      {
        assert (i in rows + [row]) == (i in rows || i == row);
      }
    }

    /**
     * The loop of the walk in `kuhn_altMarks`, from the
     * starred start cell: repeatedly unstar the star of the current column
     * and star the recorded prime of that star's row, until a column holds no
     * star. The walk reads only the snapshot, so if it comes back to a column
     * it has visited, the loop would run forever; the model then stops and
     * reports `false`.
     */
    method Follow(ghost M0: seq<seq<Mark>>, r0: int, c0: int) returns (completed: bool, ghost rows: seq<int>, ghost cols: seq<int>)
      requires Valid() && GridUnique(M0) && WalkReady(M0)
      requires Chain(M0, r0, c0, [], [c0]) && Flipped(M0, r0, c0, []) && !colCovered[c0]
      modifies marks
      ensures completed ==> Chain(M0, r0, c0, rows, cols) && Flipped(M0, r0, c0, rows)
      ensures completed ==> forall i :: 0 <= i < n ==> M0[i][cols[|rows|]] != Marked
    {
      var visited: set<int> := {c0};
      var col := c0;
      rows, cols := [], [c0];
      ghost var unvisited := set j | 0 <= j < m && j !in visited;
      while true
        invariant Chain(M0, r0, c0, rows, cols) && Flipped(M0, r0, c0, rows)
        invariant cols[|rows|] == col && !colCovered[col]
        invariant forall k :: 0 <= k < |cols| ==> cols[k] in visited
        invariant forall j :: 0 <= j < m && j !in visited ==> j in unvisited
        decreases unvisited
      {
        var row := colMarks[col];
        if row < 0 {
          return true, rows, cols;
        }
        var pcol := rowPrimes[row];
        if pcol in visited {
          return false, rows, cols;
        }
        NextInChain(M0, r0, c0, rows, cols, row, pcol);
        Link(M0, r0, c0, rows, row, col, pcol);
        visited := visited + {pcol};
        unvisited := unvisited - {pcol};
        rows := rows + [row];
        cols := cols + [pcol];
        col := pcol;
      }
    }

    /**
     * The walk of `kuhn_altMarks` from the prime (r0, c0) of
     * a starless row, over the snapshot just taken. When it finishes, stars
     * are still unique, exactly row r0 gained a star, and every star is an
     * old star or an old prime.
     */
    method Walk(r0: int, c0: int) returns (completed: bool)
      requires Valid() && 0 <= r0 < n && 0 <= c0 < m
      requires StarsUnique() && PrimesUncovered() && StarsPrimed() && SnapshotOk()
      requires marks[r0, c0] == Prime && !RowHasStar(r0) && !colCovered[c0]
      modifies marks
      ensures completed ==> StarsUnique()
      ensures completed ==> forall i :: 0 <= i < n ==> (RowHasStar(i) <==> old(RowHasStar(i)) || i == r0)
      ensures completed ==> forall i, j :: 0 <= i < n && 0 <= j < m && marks[i, j] == Marked ==> old(marks[i, j]) != Unmarked
    {
      ghost var M0 := Grid();
      assert GridUnique(M0) && WalkReady(M0) && Chain(M0, r0, c0, [], [c0]);
      AltMark(r0, c0);
      ghost var rows, cols;
      completed, rows, cols := Follow(M0, r0, c0);
      if completed {
        WalkDone(M0, r0, c0, rows, cols);
      }
    }

    /** The rows holding a star. */
    ghost function StarredRows(): (rows: set<int>)
      reads marks
      requires Valid()
      ensures forall i :: i in rows <==> 0 <= i < n && RowHasStar(i)
    {
      set i | 0 <= i < n && RowHasStar(i)
    }

    /**
     * The chain flip (`kuhn_altMarks`) from the prime (r0, c0) found by the
     * prime search: snapshot, walk, then erase every prime. When the walk
     * finishes, no prime is left, stars are unique, the starred rows are the
     * old ones plus r0 (so there is one star more), and every star sits where
     * a star or a prime was.
     */
    method AltMarks(r0: int, c0: int) returns (completed: bool)
      requires Valid() && 0 <= r0 < n && 0 <= c0 < m
      requires StarsUnique() && PrimesUncovered() && StarsPrimed()
      requires marks[r0, c0] == Prime && !RowHasStar(r0) && !colCovered[c0]
      modifies marks, rowPrimes, colMarks
      ensures completed ==> NoPrimes() && StarsUnique()
      ensures completed ==> StarredRows() == old(StarredRows()) + {r0} && r0 !in old(StarredRows())
      ensures completed ==> |StarredRows()| == |old(StarredRows())| + 1
      ensures completed ==> forall i, j :: 0 <= i < n && 0 <= j < m && marks[i, j] != Unmarked ==> old(marks[i, j]) != Unmarked
    {
      Snapshot();
      completed := Walk(r0, c0);
      label walked:
      if completed {
        ClearPrimes();
        forall i | 0 <= i < n
          ensures RowHasStar(i) == old@walked(RowHasStar(i))
        {
          if RowHasStar(i) {
            var j :| 0 <= j < m && marks[i, j] == Marked;
            assert old@walked(marks[i, j]) == Marked;
          }
        }
        assert StarredRows() == old(StarredRows()) + {r0};
      }
    }

    /**
     * The inner loop of `kuhn_match`: search for a prime and,
     * while none is found, adjust the duals and search again. `fuel` bounds
     * the number of adjustments; `left` is what remains of it.
     */
    method NextPrime(fuel: nat) returns (found: bool, row: int, col: int, left: nat)
      requires Valid() && CellsBounded() && StarsUnique() && MarksOnZeros() && PrimesUncovered() && StarsPrimed()
      modifies table, marks, rowCovered, colCovered
      ensures CellsBounded() && SearchOk() && left <= fuel
      ensures found ==> 0 <= row < n && 0 <= col < m && marks[row, col] == Prime && !RowHasStar(row) && !colCovered[col]
    {
      left := fuel;
      found, row, col := FindPrime();
      while !found
        invariant CellsBounded() && SearchOk() && left <= fuel
        invariant found ==> 0 <= row < n && 0 <= col < m && marks[row, col] == Prime && !RowHasStar(row) && !colCovered[col]
        invariant !found ==> NoUncoveredZero()
        decreases left
      {
        if left == 0 {
          return;
        }
        left := left - 1;
        var _ := AddAndSubtract();
        found, row, col := FindPrime();
      }
    }

    /**
     * The body of `kuhn_match` between allocation and `kuhn_assign`. The C loops are not known to terminate; `fuel` bounds the
     * number of dual adjustments and of rounds, and running out of it, or a
     * chain flip that would never end, gives `false`. On success every row
     * holds a star, stars are unique and sit on zeros of the reduced table.
     */
    method Run(fuel: nat) returns (solved: bool)
      requires Valid() && CellsBounded() && (n > 0 ==> m > 0)
      requires forall i, j :: 0 <= i < n && 0 <= j < m ==> marks[i, j] == Unmarked
      requires forall j :: 0 <= j < m ==> !colCovered[j]
      modifies table, marks, rowPrimes, colMarks, rowCovered, colCovered
      ensures CellsBounded()
      ensures solved ==> StarsUnique() && MarksOnZeros() && forall i :: 0 <= i < n ==> RowHasStar(i)
    {
      ReduceRows();
      var count := MarkZeroes();
      if count == n {
        return true;
      }
      var f := fuel;
      while true
        invariant CellsBounded() && StarsUnique() && MarksOnZeros() && NoPrimes()
        invariant forall j :: 0 <= j < m ==> (colCovered[j] <==> ColHasStar(j))
        decreases f
      {
        var found, row, col, left := NextPrime(f);
        if !found {
          return false;
        }
        f := left;
        var completed := AltMarks(row, col);
        if !completed {
          return false;
        }
        count := CountColumns();
        if count == n {
          return true;
        }
        if f == 0 {
          return false;
        }
        f := f - 1;
      }
    }
  }

  /**
   * `kuhn_match`: reduce the rows, star zeros greedily, then alternate prime
   * searches (with dual adjustments while none is found) and chain flips
   * until every row holds a star, and read the assignment off the stars.
   * A result assigns every row a distinct column, on a zero of the reduced
   * table; `None` is the model's stand-in for a run that does not stop (see
   * `KuhnData.Run`).
   */
  method KuhnMatch(table: array2<int>, fuel: nat) returns (result: Option<seq<(int, int)>>)
    requires forall i, j :: 0 <= i < table.Length0 && 0 <= j < table.Length1 ==> IsCell(table[i, j])
    requires table.Length0 > 0 ==> table.Length1 > 0
    modifies table
    ensures forall i, j :: 0 <= i < table.Length0 && 0 <= j < table.Length1 ==> IsCell(table[i, j])
    ensures result.Some? ==> |result.value| == table.Length0
    ensures result.Some? ==> forall i :: 0 <= i < table.Length0 ==>
      result.value[i].0 == i && 0 <= result.value[i].1 < table.Length1 && table[i, result.value[i].1] == 0
    ensures result.Some? ==> forall i1, i2 :: 0 <= i1 < i2 < table.Length0 ==> result.value[i1].1 != result.value[i2].1
  {
    var k := new KuhnData(table);
    var solved := k.Run(fuel);
    if !solved {
      return None;
    }
    var assignment := k.Assign();
    result := Some(assignment);
  }
}
